=== FILE: README.md ===
# ShareIt booking, item and user rules in Dafny

ShareIt is an item-sharing service: users list items, other users book them
for a time window, and the owner approves or rejects each booking. The
repository holds three generations of the same application, and this model
covers the core of each:

- `server/`: the JPA-backed server. It covers booking creation, the owner's
  approve/reject decision, the booker-or-owner read rule and the state-filtered
  listings. It also covers item creation, the null-preserving update, the search,
  commenting after a booking, the last/next booking scan, user CRUD with email
  uniqueness, and the booking and item mappers.
- `src/`: the monolith. It includes its static `BookingValidator`, its
  `DefaultBookingValidator`, the JPA-style booking, item and user services with
  their validators, and the older in-memory user and item repositories and
  services.
- `gateway/`: the gateway's booking-time check.

Modelling conventions:

- A Java reference that may be null is an `Option`.
- An exception is an `Error` constructor returned in a `Result` or `Outcome`. An
  unboxing or dereference of null is `NullValue`.
- Timestamps are integers (seconds). `LocalDateTime.now()` is always an explicit
  `now` parameter.
- Tables and maps are immutable Dafny maps, and each write returns the new store.
- A new row of a JPA identity column is given one past the largest key
  currently stored. This is a modelling choice; the database's own sequence
  may differ (see "Left out"). The in-memory user repositories keep an
  explicit counter.
- Queries whose order the source does not fix return sets. The last/next scans
  take the ordered query result as a sequence.
- Case folding covers the ASCII letters. `trim` removes every character up to
  U+0020, as Java's does.

Every variant is modelled on its own terms, and lemmas relate the variants: which
time check is strictest, where the approval and access rules agree, and how the
searches and last/next resolvers differ.

## Model

| member | source | states |
|---|---|---|
| Domain.StatusByApprove | server/src/main/java/ru/practicum/shareit/booking/service/BookingServiceImpl.java:150-152 | An owner's decision never leaves a booking WAITING: approval gives APPROVED and only approval does; rejection gives REJECTED and only rejection does |
| Domain.WithStatus | server/src/main/java/ru/practicum/shareit/booking/service/BookingServiceImpl.java:55-66 | Setting a booking's status keeps its id, window, item and booker |
| Temporal.PastCurrentFutureDisjoint | server/src/main/java/ru/practicum/shareit/booking/service/BookingServiceImpl.java:157-170 | For a window that is not inverted, the PAST, CURRENT and FUTURE filters pick pairwise disjoint bookings at any `now` |
| Temporal.InvertedWindowIsPastAndFuture | server/src/main/java/ru/practicum/shareit/booking/service/BookingServiceImpl.java:157-170 | The disjointness needs that hypothesis: a booking whose end precedes its start matches PAST and FUTURE at once |
| Temporal.TimeBucketsCoverAllButBoundaries | server/src/main/java/ru/practicum/shareit/booking/service/BookingServiceImpl.java:157-170 | An approved booking with a proper window is in some time bucket exactly when `now` is neither its start nor its end, because the comparisons are strict |
| Temporal.StatusBucketsExcludeTimeBuckets | server/src/main/java/ru/practicum/shareit/booking/service/BookingServiceImpl.java:157-170 | WAITING and REJECTED match on status alone, and such a booking is in no time bucket |
| Temporal.OverlappingSymmetric | src/main/java/ru/practicum/shareit/booking/validation/DefaultBookingValidator.java:110-114 | The overlap test does not depend on which window is the existing one |
| Temporal.OverlappingIffSharedInstant | src/main/java/ru/practicum/shareit/booking/validation/DefaultBookingValidator.java:110-114 | For proper windows, the overlap test holds exactly when some instant lies in both closed windows |
| Temporal.ClosedOverlapRefusesTouchingWindows | src/main/java/ru/practicum/shareit/booking/validation/DefaultBookingValidator.java:110-114 | The closed overlap implies the half-open one, and the two differ on windows that only touch at an end |
| Text.Trim | src/main/java/ru/practicum/shareit/item/ItemRepositoryImpl.java:86-89 | The result is empty exactly for blank text; otherwise it has no trimmable character at either end |
| Text.TrimIsInfix | src/main/java/ru/practicum/shareit/item/ItemRepositoryImpl.java:86-89 | Trim keeps an infix of its input: everything cut off before and after it is trimmable |
| Text.TrimIsTheKeptInfix | src/main/java/ru/practicum/shareit/item/ItemRepositoryImpl.java:86-89 | Any infix left after cutting trimmable ends whose own ends are kept characters (or which is empty) is what trim returns |
| Text.TrimIdempotent | src/main/java/ru/practicum/shareit/item/ItemRepositoryImpl.java:86-89 | Trimming trimmed text changes nothing |
| Text.LowerCase | src/main/java/ru/practicum/shareit/item/ItemRepositoryImpl.java:89-93 | The result has the same length and lower-cases each character in place |
| Text.UpperCase | server/src/main/java/ru/practicum/shareit/item/storage/ItemRepository.java:28-31 | The result has the same length and upper-cases each character in place |
| Text.EqualsIgnoreCaseIsLowerEquality | src/main/java/ru/practicum/shareit/user/repository/UserRepositoryImpl.java:65-76 | Case-insensitive equality is equality after lower-casing, so it is reflexive and symmetric |
| Text.OccursAtIgnoringCase | server/src/main/java/ru/practicum/shareit/item/storage/ItemRepository.java:28-31 | At any position, an upper-case match and a lower-case match agree |
| Text.LikeIsContainsIgnoreCase | server/src/main/java/ru/practicum/shareit/item/storage/ItemRepository.java:28-31 | The SQL search `UPPER(col) LIKE UPPER('%' + text + '%')` agrees with lower-case `contains` for every column and every text |
| GatewayBookingValidator.ValidateBookingTime | gateway/src/main/java/ru/practicum/shareit/booking/BookingValidator.java:13-18 | Passes exactly when start is strictly before end; otherwise a validation error |
| GatewayBookingValidator.ValidateBooking | gateway/src/main/java/ru/practicum/shareit/booking/BookingValidator.java:9-11 | A request passes exactly when its window is non-empty; nothing else is checked |
| MonolithBookingValidator.ValidateBookingTime | src/main/java/ru/practicum/shareit/booking/validator/BookingValidator.java:16-32 | Passes exactly when start < end and the start is not before `now`; every refusal is a validation error |
| MonolithBookingValidator.EndBeforeNowCheckIsRedundant | src/main/java/ru/practicum/shareit/booking/validator/BookingValidator.java:20-31 | Once the first two time checks pass, the third (end before now) cannot fire |
| MonolithBookingValidator.ValidateItem | src/main/java/ru/practicum/shareit/booking/validator/BookingValidator.java:34-38 | Passes exactly for an available item; `false` is a validation error and a null flag an unboxing failure |
| MonolithBookingValidator.ValidateBooking | src/main/java/ru/practicum/shareit/booking/validator/BookingValidator.java:9-14 | Returns the same booking exactly when the window and the item pass; time errors come first; with a valid window an unavailable item gives a validation error and a missing flag a null-value error |
| DefaultBookingValidator.ValidateBookingTimes | src/main/java/ru/practicum/shareit/booking/validation/DefaultBookingValidator.java:87-97 | Passes exactly when both ends are present, start <= end, and start is at most one minute before `now` |
| DefaultBookingValidator.ValidateCreateBooking | src/main/java/ru/practicum/shareit/booking/validation/DefaultBookingValidator.java:27-42 | NotFound for an unknown booker or item, then self-booking, times and overlap with an approved booking; passes exactly when every guard holds |
| DefaultBookingValidator.CreationIgnoresAvailability | src/main/java/ru/practicum/shareit/booking/validation/DefaultBookingValidator.java:27-42 | The outcome is the same whatever the item's `available` flag |
| DefaultBookingValidator.UndecidedBookingsDoNotBlock | src/main/java/ru/practicum/shareit/booking/validation/DefaultBookingValidator.java:99-108 | Adding a WAITING or REJECTED booking, whatever its window, never changes the outcome of creation |
| DefaultBookingValidator.ValidateApprovalRights | src/main/java/ru/practicum/shareit/booking/validation/DefaultBookingValidator.java:44-57 | Passes exactly when the booking exists, the caller owns its item and it is still WAITING; NotFound, PermissionDenied, then Validation |
| DefaultBookingValidator.ValidateAccessToBooking | src/main/java/ru/practicum/shareit/booking/validation/DefaultBookingValidator.java:59-68 | Passes exactly when the booking exists and the caller is its booker or its item's owner; otherwise NotFound or PermissionDenied |
| Mappers.ToBooking | server/src/main/java/ru/practicum/shareit/booking/mapper/BookingMapper.java:58-68 | A new booking has no id, is WAITING and carries the request's window, the item and the booker |
| Mappers.ToBookingDto | server/src/main/java/ru/practicum/shareit/booking/mapper/BookingMapper.java:30-39 | Null maps to null; otherwise the DTO has the booking's id, window, status and booker, and the item's id, name, description and availability without bookings or comments |
| Mappers.ToBookingDtos | server/src/main/java/ru/practicum/shareit/booking/mapper/BookingMapper.java:44-52 | A null collection gives an empty list; otherwise one DTO per booking, in order |
| Mappers.MapBookings | server/src/main/java/ru/practicum/shareit/booking/mapper/BookingMapper.java:44-52 | The loop maps position i to the DTO of booking i |
| Mappers.ToResponseItemDto | server/src/main/java/ru/practicum/shareit/item/mapper/ItemMapper.java:22-35 | Item fields are copied; last and next are the booking DTOs of the last and next bookings, present exactly when those are; comments are passed on |
| Mappers.ToResponseItemDtoWithComments | server/src/main/java/ru/practicum/shareit/item/mapper/ItemMapper.java:37-47 | Item fields and comments are copied; no booking information |
| Mappers.ToResponseItemDtoPlain | server/src/main/java/ru/practicum/shareit/item/mapper/ItemMapper.java:49-59 | Item fields are copied; no bookings and no comments |
| Mappers.ShortOverloadsOmitBookings | server/src/main/java/ru/practicum/shareit/item/mapper/ItemMapper.java:37-59 | The two short overloads are the full mapper called with null bookings (and null comments) |
| Mappers.ToOwnerItemDto | server/src/main/java/ru/practicum/shareit/item/mapper/ItemMapper.java:61-86 | Item fields are copied; each neighbour's dates are present exactly when that neighbour is, and equal its start and end |
| Mappers.ToItemDtoForRequestAnswer | server/src/main/java/ru/practicum/shareit/item/mapper/ItemMapper.java:88-96 | Id, name and owner id are copied |
| Mappers.ToItem | server/src/main/java/ru/practicum/shareit/item/mapper/ItemMapper.java:98-109 | The body's fields plus the given id, owner and request |
| Mappers.OwnerViewOfBuiltItem | server/src/main/java/ru/practicum/shareit/item/mapper/ItemMapper.java:61-109 | An item built from a body and viewed by its owner shows that body's fields and no dates |
| ServerBookingService.CheckItemAvailable | server/src/main/java/ru/practicum/shareit/booking/service/BookingServiceImpl.java:44-48 | Passes exactly for an available item; `false` is ConditionsNotMet, null an unboxing failure |
| ServerBookingService.SaveNewBooking | server/src/main/java/ru/practicum/shareit/booking/service/BookingServiceImpl.java:73-83 | The saved booking takes an unused key and is stored under it; nothing else changes |
| ServerBookingService.CreateBooking | server/src/main/java/ru/practicum/shareit/booking/service/BookingServiceImpl.java:73-83 | NotFound for an unknown item, then booker; succeeds exactly for an available item, storing a WAITING booking with the request's window |
| ServerBookingService.Approve | server/src/main/java/ru/practicum/shareit/booking/service/BookingServiceImpl.java:55-66 | NotFound, then ConditionsNotMet for a non-owner; for the owner, the stored booking's status becomes the decision's, whatever it was |
| ServerBookingService.FindBooking | server/src/main/java/ru/practicum/shareit/booking/service/BookingServiceImpl.java:116-129 | NotFound for an unknown booking or caller; the booking is returned exactly to its booker or its item's owner |
| ServerBookingService.GetBookingsByUser | server/src/main/java/ru/practicum/shareit/booking/service/BookingServiceImpl.java:89-95 | Exactly the stored bookings of the caller that match the state at `now` |
| ServerBookingService.GetBookingsByOwner | server/src/main/java/ru/practicum/shareit/booking/service/BookingServiceImpl.java:101-110 | NotFound exactly for an unknown caller; otherwise exactly the stored bookings of the caller's items that match the state |
| ServerBookingService.BookerListingsPartition | server/src/main/java/ru/practicum/shareit/booking/service/BookingServiceImpl.java:89-95 | With proper windows, PAST, CURRENT and FUTURE listings are disjoint, every listing is part of ALL, and ALL outside WAITING/REJECTED is approved |
| ServerBookingService.ApproveIsIdempotent | server/src/main/java/ru/practicum/shareit/booking/service/BookingServiceImpl.java:55-66 | Repeating the same decision changes nothing more |
| ServerBookingService.DecisionCanBeReversed | server/src/main/java/ru/practicum/shareit/booking/service/BookingServiceImpl.java:55-66 | After a decision, the owner can still make the opposite one |
| ServerBookingService.CreatedBookingIsFound | server/src/main/java/ru/practicum/shareit/booking/service/BookingServiceImpl.java:116-129 | A created booking is found by its booker and by its item's owner |
| ServerBookingService.CreatedBookingIsWaiting | server/src/main/java/ru/practicum/shareit/booking/service/BookingServiceImpl.java:89-95 | A created booking is in its booker's WAITING listing at any time |
| ServerBookingService.CreateAcceptsInvertedWindowOfOwnItem | server/src/main/java/ru/practicum/shareit/booking/service/BookingServiceImpl.java:73-83 | Creation accepts an inverted window in the past, booked by the item's owner |
| MonolithBookingService.CreateBooking | src/main/java/ru/practicum/shareit/booking/service/BookingServiceImpl.java:35-46 | NotFound for item then booker; then the static validator; succeeds exactly for a non-empty window not starting before `now` on an available item |
| MonolithBookingService.Approve | src/main/java/ru/practicum/shareit/booking/service/BookingServiceImpl.java:49-60 | Behaves as the server's approval for every input |
| MonolithBookingService.FindBooking | src/main/java/ru/practicum/shareit/booking/service/BookingServiceImpl.java:63-77 | Behaves as the server's lookup for every input |
| MonolithBookingService.GetBookingsByUser | src/main/java/ru/practicum/shareit/booking/service/BookingServiceImpl.java:80-87 | Returns the server's listing for every input |
| MonolithBookingService.GetBookingsByOwner | src/main/java/ru/practicum/shareit/booking/service/BookingServiceImpl.java:90-98 | Returns the server's listing for every input |
| MonolithBookingService.MonolithCreationIsStricter | src/main/java/ru/practicum/shareit/booking/service/BookingServiceImpl.java:35-46 | Whatever the monolith creates, the server creates identically |
| MonolithBookingService.CreationsDifferOnlyInTime | src/main/java/ru/practicum/shareit/booking/service/BookingServiceImpl.java:35-46 | Where the server creates, the monolith refuses exactly the windows that are empty, inverted or already started |
| BookingVariants.MonolithTimeCheckIsStrictest | src/main/java/ru/practicum/shareit/booking/validator/BookingValidator.java:16-32 | A window the monolith accepts passes the gateway's and the default validator's time checks |
| BookingVariants.DefaultTimeCheckIsLenient | src/main/java/ru/practicum/shareit/booking/validation/DefaultBookingValidator.java:87-97 | The default validator accepts an empty window and a start one minute in the past, which the others refuse |
| BookingVariants.DecisionIsFinalUnderDefaultValidator | src/main/java/ru/practicum/shareit/booking/validation/DefaultBookingValidator.java:44-57 | After the server records a decision, the default approval rule refuses any further decision |
| BookingVariants.ApprovalRightsAdmitServerApproval | src/main/java/ru/practicum/shareit/booking/validation/DefaultBookingValidator.java:44-57 | Whatever the default approval rule allows, the server's approval performs |
| BookingVariants.AccessRulesAgree | src/main/java/ru/practicum/shareit/booking/validation/DefaultBookingValidator.java:59-68 | For a known caller, the default access rule and the server's lookup admit the same requests |
| ServerItemService.SaveNewItem | server/src/main/java/ru/practicum/shareit/item/service/ItemServiceImpl.java:46-57 | The saved item takes an unused key and is stored under it; nothing else changes |
| ServerItemService.Create | server/src/main/java/ru/practicum/shareit/item/service/ItemServiceImpl.java:46-57 | NotFound exactly for an unknown owner or named request; otherwise a new item with the body's fields, owned by the caller |
| ServerItemService.Update | server/src/main/java/ru/practicum/shareit/item/service/ItemServiceImpl.java:63-80 | NotFound for item then caller, ConditionsNotMet for a non-owner; null fields keep stored values and the request link never changes |
| ServerItemService.EmptyUpdateChangesNothing | server/src/main/java/ru/practicum/shareit/item/service/ItemServiceImpl.java:63-80 | An all-null body leaves the store unchanged |
| ServerItemService.UpdateIsIdempotent | server/src/main/java/ru/practicum/shareit/item/service/ItemServiceImpl.java:63-80 | Repeating an update changes nothing more |
| ServerItemService.CreatorMayUpdate | server/src/main/java/ru/practicum/shareit/item/service/ItemServiceImpl.java:46-80 | The creator of an item may update it straight away |
| ServerItemService.FindBySearch | server/src/main/java/ru/practicum/shareit/item/service/ItemServiceImpl.java:109-116 | Empty text finds nothing; otherwise exactly the stored available items whose name or description contains the text ignoring case; a null flag on a match fails |
| ServerItemService.SearchDoesNotTrim | server/src/main/java/ru/practicum/shareit/item/service/ItemServiceImpl.java:109-116 | A single space is searched for as is |
| ServerItemService.PostComment | server/src/main/java/ru/practicum/shareit/item/service/ItemServiceImpl.java:122-134 | NotFound for item then author; succeeds exactly when the author has a finished booking of the item, of any status |
| ServerItemService.RejectedPastBookingAllowsComment | server/src/main/java/ru/practicum/shareit/booking/storage/BookingRepository.java:27-32 | A finished REJECTED booking is enough to comment |
| ServerItemService.FirstStartAfter | server/src/main/java/ru/practicum/shareit/item/service/ItemServiceImpl.java:152-167 | The scan stops at the first booking that starts after `now`: every earlier one starts at or before `now` |
| ServerItemService.LastAndNext | server/src/main/java/ru/practicum/shareit/item/service/ItemServiceImpl.java:152-167 | Next is absent exactly when nothing starts after `now`, otherwise the first booking in list order that starts after `now`; last is the booking just before next, or the final one; both are from the list |
| ServerItemService.GetLastAndNextBooking | server/src/main/java/ru/practicum/shareit/item/service/ItemServiceImpl.java:152-167 | The loop computes exactly the last and next bookings defined by the scan |
| ServerItemService.FirstStartAfterIsUnique | server/src/main/java/ru/practicum/shareit/item/service/ItemServiceImpl.java:152-167 | The scan position is the only index with its two defining properties |
| ServerItemService.LastAndNextOnSortedList | server/src/main/java/ru/practicum/shareit/booking/storage/BookingRepository.java:18-22 | On the start-ordered list, last has the latest start not after `now` and next the earliest start after it |
| ServerItemService.ScanOfQueryPicksApprovedBookingsOfItem | server/src/main/java/ru/practicum/shareit/booking/storage/BookingRepository.java:18-22 | On the rows of `findAllByItem` (the stored APPROVED bookings of the item, ordered by start), last and next are stored APPROVED bookings of that item; next is absent exactly when none starts after `now`, otherwise the earliest-starting such; last is the latest-starting one not after `now` |
| ServerItemService.OngoingBookingIsLast | server/src/main/java/ru/practicum/shareit/item/service/ItemServiceImpl.java:152-167 | A booking under way at `now` is reported as the last one |
| ItemValidator.ValidateUserId | src/main/java/ru/practicum/shareit/item/validation/ItemValidatorImpl.java:29-34 | Passes exactly for a stored user; otherwise NotFound |
| ItemValidator.ValidateOwner | src/main/java/ru/practicum/shareit/item/validation/ItemValidatorImpl.java:37-41 | Passes exactly for the item's owner; otherwise Forbidden |
| ItemValidator.ValidateUpdateDto | src/main/java/ru/practicum/shareit/item/validation/ItemValidatorImpl.java:44-51 | Passes exactly when some field is present; an all-null body is IllegalArgument, a null body an unboxing failure |
| ItemValidator.ValidateCommentInput | src/main/java/ru/practicum/shareit/item/validation/ItemValidatorImpl.java:53-65 | IllegalArgument for null or blank text; otherwise passes exactly with an approved booking of the item that has ended, else BadRequest |
| MonolithItemService.ApplyUpdates | src/main/java/ru/practicum/shareit/item/service/ItemServiceImpl.java:219-235 | A null body changes nothing; each present field overwrites the stored one; id and owner are kept |
| MonolithItemService.ApplyUpdatesIsIdempotent | src/main/java/ru/practicum/shareit/item/service/ItemServiceImpl.java:219-235 | Applying a body twice is applying it once |
| MonolithItemService.ApplyUpdatesWithNullsIsIdentity | src/main/java/ru/practicum/shareit/item/service/ItemServiceImpl.java:219-235 | An all-null body leaves the item as it was |
| MonolithItemService.UpdateItem | src/main/java/ru/practicum/shareit/item/service/ItemServiceImpl.java:66-78 | NotFound, then the body check, then NoSuchElement, then Forbidden; succeeds exactly for the owner with a non-empty body, storing the updated item |
| MonolithItemService.UpdateItemNeverAppliesNullBody | src/main/java/ru/practicum/shareit/item/service/ItemServiceImpl.java:66-78 | A null body is refused before the updates are applied |
| MonolithItemService.UpdatesAgreeOnSharedFields | src/main/java/ru/practicum/shareit/item/service/ItemServiceImpl.java:66-78 | Where the server's update succeeds on the same fields, both produce the same name, description and availability |
| MonolithItemService.GetItemsByOwner | src/main/java/ru/practicum/shareit/item/service/ItemServiceImpl.java:89-96 | NotFound exactly for an unknown caller; otherwise exactly the caller's stored items |
| MonolithItemService.OwnerListingIgnoresBookings | src/main/java/ru/practicum/shareit/item/service/ItemServiceImpl.java:178-182 | The owner's listing is the same whatever bookings are stored |
| MonolithItemService.SearchItems | src/main/java/ru/practicum/shareit/item/service/ItemServiceImpl.java:99-108 | Null or blank text finds nothing; otherwise exactly the stored items matching the trimmed text, available or not |
| MonolithItemService.SearchKeepsUnavailableItems | src/main/java/ru/practicum/shareit/item/service/ItemServiceImpl.java:99-108 | An unavailable matching item is returned |
| MonolithItemService.SearchesAgreeOnAvailableItems | src/main/java/ru/practicum/shareit/item/service/ItemServiceImpl.java:99-108 | For trimmed non-blank text, the server returns exactly the available part of this search |
| MonolithItemService.LatestFinished | src/main/java/ru/practicum/shareit/item/service/ItemServiceImpl.java:190-205 | Absent exactly when nothing has ended; otherwise a booking of the list with the greatest end before `now`, and the first such in list order, as the stable sort keeps it |
| MonolithItemService.LatestFinishedIsFirstLatest | src/main/java/ru/practicum/shareit/item/service/ItemServiceImpl.java:190-205 | Conversely, the first finished booking whose end no other finished booking exceeds is the one chosen |
| MonolithItemService.EarliestUpcoming | src/main/java/ru/practicum/shareit/item/service/ItemServiceImpl.java:196-212 | Absent exactly when nothing starts after `now`; otherwise a booking of the list with the smallest start after `now`, and the first such in list order |
| MonolithItemService.EarliestUpcomingIsFirstEarliest | src/main/java/ru/practicum/shareit/item/service/ItemServiceImpl.java:196-212 | Conversely, the first upcoming booking whose start no other upcoming booking undercuts is the one chosen |
| MonolithItemService.FillBookingDates | src/main/java/ru/practicum/shareit/item/service/ItemServiceImpl.java:184-214 | Last dates are present exactly when some booking has ended, with the greatest end before `now`; next dates exactly when some booking starts after `now`, with the smallest such start; the last start and end (and the next start and end) come from one booking, the first in list order among the ties |
| MonolithItemService.DatesOfQueryComeFromApprovedBookingsOfItem | src/main/java/ru/practicum/shareit/item/service/ItemServiceImpl.java:184-214 | Given the rows of `findAllByItemIdAndStatus(item, APPROVED)`, the filled dates are those of a stored APPROVED booking of that item: the latest-ending finished one and the earliest-starting upcoming one, present exactly when such a booking exists |
| MonolithItemService.OngoingBookingIsNeither | src/main/java/ru/practicum/shareit/item/service/ItemServiceImpl.java:184-214 | A booking under way at `now` is neither last nor next |
| MonolithItemService.NextAgreesWithServerScan | src/main/java/ru/practicum/shareit/item/service/ItemServiceImpl.java:184-214 | On a start-ordered list, the server's scan and this variant pick the same next booking |
| MonolithItemService.LastDiffersFromServerScan | src/main/java/ru/practicum/shareit/item/service/ItemServiceImpl.java:184-214 | When the only booking is under way, the server reports it as last and this variant reports none |
| MonolithItemService.CommentRuleIsStricterThanServer | src/main/java/ru/practicum/shareit/item/validation/ItemValidatorImpl.java:53-65 | Whenever the validator admits a comment, the server's past-booking rule admits it too |
| InMemoryUserRepository.Initial | src/main/java/ru/practicum/shareit/user/repository/UserRepositoryImpl.java:18 | A new repository is empty with the counter at 1 |
| InMemoryUserRepository.FindById | src/main/java/ru/practicum/shareit/user/repository/UserRepositoryImpl.java:26-32 | The stored user exactly when the key is stored |
| InMemoryUserRepository.Save | src/main/java/ru/practicum/shareit/user/repository/UserRepositoryImpl.java:35-44 | A user without an id takes the counter, which then moves on; a user with an id is written as given; the user is stored under its id |
| InMemoryUserRepository.Delete | src/main/java/ru/practicum/shareit/user/repository/UserRepositoryImpl.java:47-53 | The key is gone afterwards and every other entry is kept; an absent key changes nothing |
| InMemoryUserRepository.ExistsById | src/main/java/ru/practicum/shareit/user/repository/UserRepositoryImpl.java:56-62 | False for null; otherwise agrees with the lookup |
| InMemoryUserRepository.FindByEmail | src/main/java/ru/practicum/shareit/user/repository/UserRepositoryImpl.java:79-90 | Finds a user exactly when some stored user has the email ignoring case; what it finds is stored and has that email |
| InMemoryUserRepository.SaveKeepsUsersWellKeyed | src/main/java/ru/practicum/shareit/user/repository/UserRepositoryImpl.java:35-44 | Saving keeps every user stored under its own id |
| InMemoryUserRepository.GeneratedIdIsFresh | src/main/java/ru/practicum/shareit/user/repository/UserRepositoryImpl.java:35-44 | While the counter is ahead of every key, a generated id is unused and the store grows by one |
| InMemoryUserRepository.ExplicitIdCanBeOverwrittenLater | src/main/java/ru/practicum/shareit/user/repository/UserRepositoryImpl.java:35-44 | After an explicit save under id 1, the next generated id is 1 and replaces that user |
| InMemoryUserRepository.SavedUserIsFound | src/main/java/ru/practicum/shareit/user/repository/UserRepositoryImpl.java:65-76 | A saved user is found by id and by email |
| InMemoryUserRepository.EmailLookupIgnoresCase | src/main/java/ru/practicum/shareit/user/repository/UserRepositoryImpl.java:65-76 | Whether an email is held does not depend on the case it is asked in |
| SimpleUserRepository.FindById | src/main/java/ru/practicum/shareit/user/UserRepositoryImpl.java:17-19 | Agrees with the other in-memory repository's lookup |
| SimpleUserRepository.Save | src/main/java/ru/practicum/shareit/user/UserRepositoryImpl.java:21-27 | Agrees with the other in-memory repository's save, counter included |
| SimpleUserRepository.Delete | src/main/java/ru/practicum/shareit/user/UserRepositoryImpl.java:29-31 | Agrees with the other in-memory repository's delete |
| SimpleUserRepository.ExistsById | src/main/java/ru/practicum/shareit/user/UserRepositoryImpl.java:34-40 | Agrees with the other in-memory repository's check |
| UserValidator.ValidateEmailUniqueness | src/main/java/ru/practicum/shareit/user/validation/UserValidatorImpl.java:44-49 | Conflict exactly when some stored user holds the email ignoring case |
| UserValidator.ValidateCreate | src/main/java/ru/practicum/shareit/user/validation/UserValidatorImpl.java:18-32 | IllegalArgument for a null body, email or name; passes exactly when both are present and the email is not held |
| UserValidator.IsSameEmailIgnoreCaseIsSymmetric | src/main/java/ru/practicum/shareit/user/validation/UserValidatorImpl.java:51-55 | The null-aware comparison is reflexive and symmetric, and equates null only with null |
| UserValidator.ValidateUpdate | src/main/java/ru/practicum/shareit/user/validation/UserValidatorImpl.java:35-41 | Conflict exactly when a present email differs from the current one ignoring case and is held; otherwise passes |
| UserValidator.OwnEmailInAnotherCasePasses | src/main/java/ru/practicum/shareit/user/validation/UserValidatorImpl.java:35-41 | A user may resubmit their own email in another case |
| UserValidator.CreateRefusesTakenEmailInAnyCase | src/main/java/ru/practicum/shareit/user/validation/UserValidatorImpl.java:18-32 | Creation with an email held in any case is a Conflict |
| UserValidator.ValidatedCreateMakesEmailTaken | src/main/java/ru/practicum/shareit/user/validation/UserValidatorImpl.java:18-32 | After a validated user is saved, the same request is refused |
| ServerUserService.CountUsersByEmail | server/src/main/java/ru/practicum/shareit/user/service/UserServiceImpl.java:106-109 | Zero exactly when no row holds the email |
| ServerUserService.SaveUser | server/src/main/java/ru/practicum/shareit/user/service/UserServiceImpl.java:31-40 | A row without an id gets an unused key; a row with an id is written as given; the row is stored under its id |
| ServerUserService.GetUser | server/src/main/java/ru/practicum/shareit/user/service/UserServiceImpl.java:98-101 | The stored row exactly when the key is stored; otherwise NotFound |
| ServerUserService.FindById | server/src/main/java/ru/practicum/shareit/user/service/UserServiceImpl.java:80-82 | The stored row exactly when the key is stored; otherwise NotFound |
| ServerUserService.Create | server/src/main/java/ru/practicum/shareit/user/service/UserServiceImpl.java:31-40 | DuplicatedData exactly when some row holds the email; otherwise a new row with the body's fields under an unused key |
| ServerUserService.Merge | server/src/main/java/ru/practicum/shareit/user/service/UserServiceImpl.java:49-66 | The updated user keeps the stored name and email where the body has null |
| ServerUserService.Update | server/src/main/java/ru/practicum/shareit/user/service/UserServiceImpl.java:49-66 | NotFound, a stored null email fails, DuplicatedData exactly when the email changes to a held one; in every other case with a stored email it succeeds and the merged row replaces the stored one |
| ServerUserService.DeleteById | server/src/main/java/ru/practicum/shareit/user/service/UserServiceImpl.java:89-93 | NotFound exactly for an unknown id; otherwise the row is gone |
| ServerUserService.CreateKeepsEmailsUnique | server/src/main/java/ru/practicum/shareit/user/service/UserServiceImpl.java:31-40 | Creation keeps emails unique |
| ServerUserService.UpdateKeepsEmailsUnique | server/src/main/java/ru/practicum/shareit/user/service/UserServiceImpl.java:49-66 | Update keeps emails unique |
| ServerUserService.EmptyUpdateKeepsUser | server/src/main/java/ru/practicum/shareit/user/service/UserServiceImpl.java:49-66 | An all-null body leaves the table unchanged |
| ServerUserService.UpdateIsIdempotent | server/src/main/java/ru/practicum/shareit/user/service/UserServiceImpl.java:49-66 | Repeating a successful update changes nothing more |
| MonolithUserService.Create | src/main/java/ru/practicum/shareit/user/service/UserServiceImpl.java:19-26 | DuplicatedData exactly when the email is held; otherwise the entity is saved as given; for an entity without id, as the server's create |
| MonolithUserService.Update | src/main/java/ru/practicum/shareit/user/service/UserServiceImpl.java:28-47 | Behaves as the server's update for every input |
| MonolithUserService.FindById | src/main/java/ru/practicum/shareit/user/service/UserServiceImpl.java:54-57 | Behaves as the server's lookup |
| MonolithUserService.DeleteById | src/main/java/ru/practicum/shareit/user/service/UserServiceImpl.java:59-66 | Behaves as the server's delete |
| MonolithUserService.ExplicitIdOverwritesRow | src/main/java/ru/practicum/shareit/user/service/UserServiceImpl.java:19-26 | A create with an explicit id replaces the row under that id |
| LegacyUserService.GetUserById | src/main/java/ru/practicum/shareit/user/UserServiceImpl.java:23-29 | The stored user exactly when the id is stored; otherwise NoSuchElement |
| LegacyUserService.CreateUser | src/main/java/ru/practicum/shareit/user/UserServiceImpl.java:31-35 | The request's fields are saved without a check; a null id takes the counter |
| LegacyUserService.UpdateUser | src/main/java/ru/practicum/shareit/user/UserServiceImpl.java:37-47 | NoSuchElement exactly for an unknown id; otherwise name and email are set from the request, nulls included |
| LegacyUserService.DeleteUser | src/main/java/ru/practicum/shareit/user/UserServiceImpl.java:49-54 | NoSuchElement exactly for an unknown id; otherwise the user is removed |
| LegacyUserService.CreateAllowsDuplicateEmail | src/main/java/ru/practicum/shareit/user/UserServiceImpl.java:31-35 | Two users may be created with the same email |
| LegacyUserService.UpdateErasesOmittedFields | src/main/java/ru/practicum/shareit/user/UserServiceImpl.java:37-47 | An omitted email is erased, where the server's update keeps it |
| LegacyItemRepository.Normalize | src/main/java/ru/practicum/shareit/item/ItemRepositoryImpl.java:89 | The normalised text is empty exactly for blank text |
| LegacyItemRepository.NormalizeTrimmedText | src/main/java/ru/practicum/shareit/item/ItemRepositoryImpl.java:89 | Text with no trimmable character at either end is normalised by lower-casing alone |
| LegacyItemRepository.NormalizeIsIdempotent | src/main/java/ru/practicum/shareit/item/ItemServiceImpl.java:106 | Normalising twice is normalising once, so the service's and the repository's normalisation compose |
| LegacyItemRepository.FindByUserId | src/main/java/ru/practicum/shareit/item/ItemRepositoryImpl.java:18-22 | Exactly the stored items of the owner |
| LegacyItemRepository.SaveItem | src/main/java/ru/practicum/shareit/item/ItemRepositoryImpl.java:25-41 | IllegalArgument exactly for null; an item without id takes one past the largest key (1 in an empty store); the item is stored under its id |
| LegacyItemRepository.DeleteByUserIdAndItemId | src/main/java/ru/practicum/shareit/item/ItemRepositoryImpl.java:44-63 | NoSuchElement, then IllegalState for another's item; otherwise exactly that key is removed |
| LegacyItemRepository.FindById | src/main/java/ru/practicum/shareit/item/ItemRepositoryImpl.java:66-71 | The stored item exactly for a positive stored id |
| LegacyItemRepository.FindAllByUserId | src/main/java/ru/practicum/shareit/item/ItemRepositoryImpl.java:74-82 | Nothing for a null or non-positive id; otherwise the owner's items |
| LegacyItemRepository.SearchAvailableByText | src/main/java/ru/practicum/shareit/item/ItemRepositoryImpl.java:85-95 | Nothing for null or blank text; otherwise exactly the available items whose name or description contains the normalised text; a null column reached fails |
| LegacyItemService.GetItems | src/main/java/ru/practicum/shareit/item/ItemServiceImpl.java:24-27 | Exactly the caller's stored items: every result is a stored item owned by the caller, and every such item is returned |
| LegacyItemService.AddItem | src/main/java/ru/practicum/shareit/item/ItemServiceImpl.java:31-40 | UserNotFound exactly for an unknown caller; otherwise the item is saved owned by the caller, a missing id becoming one past the largest key |
| LegacyItemService.DeleteItem | src/main/java/ru/practicum/shareit/item/ItemServiceImpl.java:53-58 | IllegalArgument for a non-positive id first; then the repository's delete |
| LegacyItemService.DeletedItemIsGone | src/main/java/ru/practicum/shareit/item/ItemServiceImpl.java:53-58 | After a successful delete the item is no longer found by id, and the owner's listing holds exactly the owner's remaining entries |
| LegacyItemService.UpdateItem | src/main/java/ru/practicum/shareit/item/ItemServiceImpl.java:61-77 | NoSuchElement, then IllegalArgument for a non-owner; otherwise every field is replaced, nulls included |
| LegacyItemService.GetItemById | src/main/java/ru/practicum/shareit/item/ItemServiceImpl.java:80-86 | The stored item exactly for a positive stored id; otherwise NoSuchElement |
| LegacyItemService.GetItemsByOwner | src/main/java/ru/practicum/shareit/item/ItemServiceImpl.java:89-97 | IllegalArgument exactly for a null or non-positive id; otherwise exactly the owner's stored items |
| LegacyItemService.SearchItems | src/main/java/ru/practicum/shareit/item/ItemServiceImpl.java:101-111 | Answers as the repository's search for every text |
| LegacyItemService.UpdatedItemIsFound | src/main/java/ru/practicum/shareit/item/ItemServiceImpl.java:61-86 | An item edited by its owner is found with every field from the request |
| LegacyItemService.AddedItemIsListed | src/main/java/ru/practicum/shareit/item/ItemServiceImpl.java:31-40 | An added item is listed among its owner's items |
| LegacyItemService.HitIsServerMatch | src/main/java/ru/practicum/shareit/item/ItemRepositoryImpl.java:92-93 | For trimmed text, the legacy filter and the server's SQL condition accept the same items |
| LegacyItemService.SearchAgreesWithServer | src/main/java/ru/practicum/shareit/item/ItemServiceImpl.java:101-111 | With non-null columns and trimmed text, the legacy search finds exactly what the server's search finds |

## Left out

- Controllers, the gateway's HTTP clients, exception handlers and request/response plumbing: they translate HTTP to service calls and add no rule.
- Item requests (`ItemRequest` services), comment and user mappers: outside the booking, item and user core.
- The server item service's `findById` and `findAllByOwner`, and the monolith item service's `addItem`, `deleteItem`, `getItemById`, `getItemWithComments`, `getItemsByOwnerWithComments` and `addComment`. These are lookups and mappings built from the members above, and they add no new guard.
- `findAll`/`getAllUsers` listings: plain listings of the store.
- Concurrency, transactions, database constraints and collation. `countUsersByEmail` is modelled as exact equality, nulls included.
- SQL `LIKE` wildcards inside the search text: `%` and `_` typed by a user are treated as literal characters.
- Non-ASCII case folding and sub-second timestamps.
- Two reads of the clock inside one validation: the model uses a single `now` per call.
- A null id passed to a `ConcurrentHashMap` lookup (which throws): ids are plain integers in the in-memory stores.
- The legacy `UserRepository` interface does not declare `existsById`, although its implementation defines it and the legacy item service calls it. The model follows the implementation.
- The monolith's `user/repository/UserRepository` interface lacks `countUsersByEmail` and an `Optional` `findById`, which the monolith's `UserServiceImpl` calls. That service is modelled with the server's JPA semantics.
- The legacy `ItemMapper.toEntity`, `UserMapper` and `User` classes are not part of this model. They are assumed to copy fields one to one.
- The monolith's `BookingMapper.toBooking` and `BookingRepository` query methods are not part of this model. They are assumed to behave as the server's.
- Key reuse for `IDENTITY` columns: the database never hands out a deleted key again, but the model's next key is one past the largest key still stored. After the row with the largest key is deleted, a new row in the model gets that deleted key. Every guard compares keys only with the keys currently stored, so none depends on the difference.
- Saving an entity with an explicit id that is not stored is modelled as a write under that id, not as Hibernate's merge.
- InMemoryUserRepository.FindByEmail: the stream's encounter order is unspecified, so the model returns the match under the largest key. The contract states only that some matching stored user is returned.
- ServerItemService.GetLastAndNextBooking and MonolithItemService.FillBookingDates take the query's result list as a parameter. The queries themselves are not modelled. What `findAllByItem` and `findAllByItemIdAndStatus` return is stated as the predicates `FindAllByItemRows` and `ApprovedBookingsOf`, and the lemmas about the two members assume it: the stored APPROVED bookings of the item, ordered by start for the former.
- A booking holds a copy of its item, taken when the booking is created. The model does not follow later updates of the item's row. The availability flag is read only at creation, from the item just loaded. After that the guards read only the item's id and owner, and no item update changes either.
- The monolith's item service calls `itemRepository.findAllByUserId`, but its `item/repository/ItemRepository` declares only `findAllByOwnerId`. The model reads the call as a filter on the owner's id.

=== FILE: booking_validators.dfy ===
/**
 * The gateway's booking check: a booking request is refused unless its
 * start is strictly before its end. Nothing else is checked there.
 */
module GatewayBookingValidator {
  import opened Common

  /** The body of a booking request as the gateway receives it. */
  datatype BookItemRequest = BookItemRequest(itemId: int, start: Time, end: Time)

  /** `validateBookingTime`: refuses a start after or equal to the end. */
  function ValidateBookingTime(start: Time, end: Time): (o: Outcome)
    ensures o.Pass? <==> start < end
    ensures o.Fail? ==> o.error == Validation
  {
    if start > end || start == end then Fail(Validation) else Pass
  }

  /** `validateBooking`: only the time check, whatever the item and however far in the past. */
  function ValidateBooking(request: BookItemRequest): (o: Outcome)
    ensures o.Pass? <==> request.start < request.end
    ensures o.Fail? ==> o.error == Validation
  {
    ValidateBookingTime(request.start, request.end)
  }
}

/**
 * The monolith's static `BookingValidator`: time checks against `now`,
 * then the item's availability flag; the booking itself is passed through.
 */
module MonolithBookingValidator {
  import opened Common
  import opened Domain

  /** `validateBookingTime`: three checks in order, each throwing a validation error. */
  function ValidateBookingTime(b: Booking, now: Time): (o: Outcome)
    ensures o.Pass? <==> b.start < b.end && now <= b.start
    ensures o.Fail? ==> o.error == Validation
  {
    if b.start > b.end || b.start == b.end then Fail(Validation)
    else if b.start < now then Fail(Validation)
    else if b.end < now then Fail(Validation)
    else Pass
  }

  /** The third check of `validateBookingTime` cannot fire once the first two have passed. */
  lemma EndBeforeNowCheckIsRedundant(b: Booking, now: Time)
    requires !(b.start > b.end || b.start == b.end)
    requires !(b.start < now)
    ensures !(b.end < now)
  {
  }

  /** `validateItem`: an unavailable item is refused; a null flag throws on unboxing. */
  function ValidateItem(b: Booking): (o: Outcome)
    ensures o.Pass? <==> b.item.available == Some(true)
    ensures b.item.available == Some(false) ==> o == Fail(Validation)
    ensures b.item.available == None ==> o == Fail(NullValue)
  {
    match b.item.available
    case None => Fail(NullValue)
    case Some(available) => if !available then Fail(Validation) else Pass
  }

  /** `validateBooking`: the time checks, then the item check; on success the same booking comes back. */
  function ValidateBooking(b: Booking, now: Time): (r: Result<Booking>)
    ensures r.Ok? <==> b.start < b.end && now <= b.start && b.item.available == Some(true)
    ensures r.Ok? ==> r.value == b
    ensures !(b.start < b.end && now <= b.start) ==> r == Err(Validation)
    ensures b.start < b.end && now <= b.start && b.item.available == Some(false) ==> r == Err(Validation)
    ensures b.start < b.end && now <= b.start && b.item.available == None ==> r == Err(NullValue)
  {
    var time := ValidateBookingTime(b, now);
    if time.Fail? then Err(time.error)
    else
      :- ValidateItem(b);
      Ok(b)
  }
}

/**
 * The monolith's `DefaultBookingValidator`: creation guards (existence,
 * no self-booking, time window, no overlap with an approved booking), the
 * owner-only and WAITING-only approval rule, and the access rule.
 */
module DefaultBookingValidator {
  import opened Common
  import opened Domain
  import opened Temporal

  /** The booking to be created; the entity's start and end columns are nullable. */
  datatype Candidate = Candidate(itemId: int, bookerId: int, start: Option<Time>, end: Option<Time>)

  /** `validateBookingTimes`: both ends present, start not after end, start not more than a minute in the past. */
  function ValidateBookingTimes(start: Option<Time>, end: Option<Time>, now: Time): (o: Outcome)
    ensures o.Pass? <==> start.Some? && end.Some? && start.value <= end.value && start.value >= now - OneMinute
    ensures o.Fail? ==> o.error == Validation
  {
    if start.None? || end.None? then Fail(Validation)
    else if start.value > end.value then Fail(Validation)
    else if start.value < now - OneMinute then Fail(Validation)
    else Pass
  }

  /**
   * The loop of `checkItemAvailability` over the result of
   * `findAllByItemIdAndStatus(item.getId(), APPROVED)`: some approved
   * booking of the item overlaps the window.
   */
  predicate HasApprovedOverlap(bookings: map<int, Booking>, itemId: Option<int>, start: Time, end: Time) {
    exists k :: k in bookings && bookings[k].item.id == itemId && bookings[k].status == APPROVED
                && Overlapping(bookings[k].start, bookings[k].end, start, end)
  }

  /** `validateCreateBooking`: booker, item, self-booking, times, then overlap. */
  function ValidateCreateBooking(db: Db, c: Candidate, now: Time): (o: Outcome)
    ensures c.bookerId !in db.users ==> o == Fail(NotFound)
    ensures c.bookerId in db.users && c.itemId !in db.items ==> o == Fail(NotFound)
    ensures c.bookerId in db.users && c.itemId in db.items && db.items[c.itemId].ownerId == c.bookerId
            ==> o == Fail(Validation)
    ensures o.Pass? <==>
              && c.bookerId in db.users && c.itemId in db.items
              && db.items[c.itemId].ownerId != c.bookerId
              && c.start.Some? && c.end.Some?
              && c.start.value <= c.end.value
              && c.start.value >= now - OneMinute
              && forall k :: k in db.bookings && db.bookings[k].item.id == db.items[c.itemId].id
                             && db.bookings[k].status == APPROVED
                             ==> !Overlapping(db.bookings[k].start, db.bookings[k].end, c.start.value, c.end.value)
    ensures o.Fail? && c.bookerId in db.users && c.itemId in db.items ==> o.error == Validation
  {
    if c.bookerId !in db.users then Fail(NotFound)
    else if c.itemId !in db.items then Fail(NotFound)
    else
      var item := db.items[c.itemId];
      if item.ownerId == c.bookerId then Fail(Validation)
      else
        match ValidateBookingTimes(c.start, c.end, now)
        case Fail(e) => Fail(e)
        case Pass =>
          if HasApprovedOverlap(db.bookings, item.id, c.start.value, c.end.value) then Fail(Validation)
          else Pass
  }

  /** The creation guards never read the item's `available` flag. */
  lemma CreationIgnoresAvailability(db: Db, c: Candidate, now: Time, flag: Option<bool>)
    requires c.itemId in db.items
    ensures var item' := db.items[c.itemId].(available := flag);
            ValidateCreateBooking(db.(items := db.items[c.itemId := item']), c, now)
            == ValidateCreateBooking(db, c, now)
  {
  }

  /** A WAITING or REJECTED booking, wherever it lies, never blocks a creation. */
  lemma UndecidedBookingsDoNotBlock(db: Db, c: Candidate, now: Time, k: int, b: Booking)
    requires b.status != APPROVED
    requires k !in db.bookings
    ensures ValidateCreateBooking(db.(bookings := db.bookings[k := b]), c, now)
            == ValidateCreateBooking(db, c, now)
  {
    var db' := db.(bookings := db.bookings[k := b]);
    if c.bookerId in db.users && c.itemId in db.items && c.start.Some? && c.end.Some? {
      var id := db.items[c.itemId].id;
      assert HasApprovedOverlap(db'.bookings, id, c.start.value, c.end.value)
             <==> HasApprovedOverlap(db.bookings, id, c.start.value, c.end.value)
      by {
        if HasApprovedOverlap(db'.bookings, id, c.start.value, c.end.value) {
          var j :| j in db'.bookings && db'.bookings[j].item.id == id && db'.bookings[j].status == APPROVED
                   && Overlapping(db'.bookings[j].start, db'.bookings[j].end, c.start.value, c.end.value);
          assert j != k && j in db.bookings;
        }
        if HasApprovedOverlap(db.bookings, id, c.start.value, c.end.value) {
          var j :| j in db.bookings && db.bookings[j].item.id == id && db.bookings[j].status == APPROVED
                   && Overlapping(db.bookings[j].start, db.bookings[j].end, c.start.value, c.end.value);
          assert j in db'.bookings && db'.bookings[j] == db.bookings[j];
        }
      }
    }
  }

  /** `validateApprovalRights`: the booking exists, the caller owns its item, and it is still WAITING. */
  function ValidateApprovalRights(db: Db, bookingId: int, ownerId: int): (o: Outcome)
    ensures o.Pass? <==>
              && bookingId in db.bookings
              && IsItemOwner(db.bookings[bookingId], ownerId)
              && db.bookings[bookingId].status == BookingStatus.WAITING
    ensures bookingId !in db.bookings ==> o == Fail(NotFound)
    ensures bookingId in db.bookings && !IsItemOwner(db.bookings[bookingId], ownerId) ==> o == Fail(PermissionDenied)
    ensures bookingId in db.bookings && IsItemOwner(db.bookings[bookingId], ownerId)
              && db.bookings[bookingId].status != BookingStatus.WAITING
            ==> o == Fail(Validation)
  {
    if bookingId !in db.bookings then Fail(NotFound)
    else
      var booking := db.bookings[bookingId];
      if booking.item.ownerId != ownerId then Fail(PermissionDenied)
      else if booking.status.APPROVED? || booking.status.REJECTED? then Fail(Validation)
      else Pass
  }

  /** `validateAccessToBooking`: the booking exists and the caller is its booker or its item's owner. */
  function ValidateAccessToBooking(db: Db, bookingId: int, userId: int): (o: Outcome)
    ensures o.Pass? <==> bookingId in db.bookings && IsBookerOrOwner(db.bookings[bookingId], userId)
    ensures bookingId !in db.bookings ==> o == Fail(NotFound)
    ensures o.Fail? && bookingId in db.bookings ==> o.error == PermissionDenied
  {
    if bookingId !in db.bookings then Fail(NotFound)
    else
      var booking := db.bookings[bookingId];
      if booking.bookerId != userId && booking.item.ownerId != userId then Fail(PermissionDenied)
      else Pass
  }
}

=== FILE: booking_variants.dfy ===
/**
 * How the booking rules of the gateway, the server and the monolith relate:
 * which time checks are stricter, and which approval and access rules
 * agree.
 */
module BookingVariants {
  import opened Common
  import opened Domain
  import GatewayBookingValidator
  import MonolithBookingValidator
  import DefaultBookingValidator
  import ServerBookingService

  /**
   * A window the monolith's static validator accepts passes the gateway's
   * check and the default validator's check too.
   */
  lemma MonolithTimeCheckIsStrictest(b: Booking, now: Time)
    requires MonolithBookingValidator.ValidateBookingTime(b, now).Pass?
    ensures GatewayBookingValidator.ValidateBookingTime(b.start, b.end).Pass?
    ensures DefaultBookingValidator.ValidateBookingTimes(Some(b.start), Some(b.end), now).Pass?
  {
  }

  /**
   * The default validator accepts an empty window and a start up to one
   * minute in the past, both of which the other two refuse.
   */
  lemma DefaultTimeCheckIsLenient(now: Time)
    ensures DefaultBookingValidator.ValidateBookingTimes(Some(now), Some(now), now).Pass?
    ensures GatewayBookingValidator.ValidateBookingTime(now, now).Fail?
    ensures var b := Booking(None, now - OneMinute, now + OneMinute, Item(None, None, None, Some(true), 0, None), 1, BookingStatus.WAITING);
            && DefaultBookingValidator.ValidateBookingTimes(Some(b.start), Some(b.end), now).Pass?
            && MonolithBookingValidator.ValidateBookingTime(b, now).Fail?
  {
  }

  /**
   * Once the server has recorded a decision, the default validator's
   * approval rule refuses any further decision on that booking.
   */
  lemma DecisionIsFinalUnderDefaultValidator(db: Db, userId: int, bookingId: int, approved: bool)
    requires ServerBookingService.Approve(db, userId, bookingId, approved).Ok?
    ensures var (db', _) := ServerBookingService.Approve(db, userId, bookingId, approved).value;
            DefaultBookingValidator.ValidateApprovalRights(db', bookingId, userId) == Fail(Validation)
  {
  }

  /** Whatever the default approval rule allows, the server's approval performs. */
  lemma ApprovalRightsAdmitServerApproval(db: Db, userId: int, bookingId: int, approved: bool)
    requires DefaultBookingValidator.ValidateApprovalRights(db, bookingId, userId).Pass?
    ensures ServerBookingService.Approve(db, userId, bookingId, approved).Ok?
  {
  }

  /** For a known caller, the default access rule and the server's lookup admit exactly the same requests. */
  lemma AccessRulesAgree(db: Db, bookingId: int, userId: int)
    requires userId in db.users
    ensures DefaultBookingValidator.ValidateAccessToBooking(db, bookingId, userId).Pass?
            <==> ServerBookingService.FindBooking(db, bookingId, userId).Ok?
  {
  }
}

=== FILE: common.dfy ===
/**
 * Shared vocabulary of the ShareIt model: nullable values, the exceptions
 * the services throw (as an error datatype), timestamps, and id generation
 * for map-backed stores.
 */
module Common {

  /** A Java reference that may be null. */
  datatype Option<+T> = None | Some(value: T)

  /** Timestamps are whole seconds on one time line; `now` is always a parameter. */
  type Time = int

  /** One second-based minute, the clock-skew tolerance of the default booking validator. */
  const OneMinute: int := 60

  /**
   * The exceptions thrown by the services, one constructor per kind of
   * exception. `Validation` stands for both `jakarta.validation.ValidationException`
   * and the project's own `ValidationException`.
   */
  datatype Error =
    | NotFound            // NotFoundException
    | ConditionsNotMet    // ConditionsNotMetException
    | PermissionDenied    // PermissionDeniedException
    | Validation          // ValidationException
    | IllegalArgument     // IllegalArgumentException
    | IllegalState        // IllegalStateException
    | NoSuchElement       // NoSuchElementException
    | DuplicatedData      // DuplicatedDataException
    | Conflict            // ConflictException
    | Forbidden           // ForbiddenException
    | BadRequest          // ResponseStatusException(BAD_REQUEST)
    | UserNotFound        // UserNotFoundException
    | NullValue           // NullPointerException on a null field

  /** The value a service returns, or the exception it throws. */
  datatype Result<+T> = Ok(value: T) | Err(error: Error) {
    predicate IsFailure() { Err? }

    function PropagateFailure<U>(): Result<U>
      requires Err?
    {
      Err(error)
    }

    function Extract(): T
      requires Ok?
    {
      value
    }
  }

  /** A check that returns normally or throws: a Java `void validate…` method. */
  datatype Outcome = Pass | Fail(error: Error) {
    predicate IsFailure() { Fail? }

    function PropagateFailure<U>(): Result<U>
      requires Fail?
    {
      Err(error)
    }
  }

  /** Passes when `condition` holds and throws `error` otherwise. */
  function Need(condition: bool, error: Error): (o: Outcome)
    ensures o.Pass? <==> condition
    ensures o.Fail? ==> o.error == error
  {
    if condition then Pass else Fail(error)
  }

  /** A set is empty or has an element (set extensionality). */
  lemma EmptyOrInhabited(s: set<int>)
    ensures s == {} || exists e :: e in s
  {
    if forall e :: e !in s {
      assert s == {};
    }
  }

  /** Every non-empty finite set of integers has a largest element. */
  lemma {:induction false} LargestExists(s: set<int>)
    requires s != {}
    ensures exists j :: j in s && forall i :: i in s ==> i <= j
    decreases |s|
  {
    EmptyOrInhabited(s);
    var x :| x in s;
    if s != {x} {
      LargestExists(s - {x});
      var j :| j in s - {x} && forall i :: i in s - {x} ==> i <= j;
      var top := if x <= j then j else x;
      assert forall i :: i in s ==> i == x || i in s - {x};
    } else {
      assert x in s && forall i :: i in s ==> i <= x;
    }
  }

  /** The largest key of a store, or 0 for an empty store. */
  function MaxKey<V>(m: map<int, V>): (k: int)
    ensures forall j :: j in m ==> j <= k
    ensures m != map[] ==> k in m
    ensures m == map[] ==> k == 0
  {
    if m.Keys == {} then 0
    else
      LargestExists(m.Keys);
      var j :| j in m && forall i :: i in m ==> i <= j;
      j
  }

  /** The id a store generates for a new entry: one past the largest key, 1 when empty. */
  function NextKey<V>(m: map<int, V>): (k: int)
    ensures k !in m
    ensures forall j :: j in m ==> j < k
    ensures m != map[] ==> k - 1 in m
    ensures m == map[] ==> k == 1
  {
    MaxKey(m) + 1
  }
}

=== FILE: domain.dfy ===
/**
 * The entities of ShareIt: users, items, bookings and comments, the two
 * booking enums, and the database the server-side services share.
 */
module Domain {
  import opened Common

  /** The status a booking carries in the database. */
  datatype BookingStatus = WAITING | APPROVED | REJECTED

  /** The bucket a booking listing is filtered by. */
  datatype States = ALL | CURRENT | PAST | FUTURE | WAITING | REJECTED

  /** A user; name and email are nullable columns of the Java entity. */
  datatype User = User(id: Option<int>, name: Option<string>, email: Option<string>)

  /**
   * An item. The owner is kept by id (`item.owner.id` in the server,
   * `item.userId` in the monolith); the request is kept by id.
   */
  datatype Item = Item(
    id: Option<int>,
    name: Option<string>,
    description: Option<string>,
    available: Option<bool>,
    ownerId: int,
    requestId: Option<int>)

  /** A booking; it holds the booked item as loaded with it and the booker by id. */
  datatype Booking = Booking(
    id: Option<int>,
    start: Time,
    end: Time,
    item: Item,
    bookerId: int,
    status: BookingStatus)

  /** A comment left on an item by a user. */
  datatype Comment = Comment(id: Option<int>, text: Option<string>, itemId: int, authorId: int, created: Time)

  /** The tables the server-side services read and write. `requests` holds the ids of item requests. */
  datatype Db = Db(
    users: map<int, User>,
    items: map<int, Item>,
    bookings: map<int, Booking>,
    requests: set<int>,
    comments: map<int, Comment>)

  /** Whether `userId` owns the booked item. */
  predicate IsItemOwner(b: Booking, userId: int) {
    b.item.ownerId == userId
  }

  /** The access rule shared by every variant: only the booker and the item's owner may see a booking. */
  predicate IsBookerOrOwner(b: Booking, userId: int) {
    b.bookerId == userId || IsItemOwner(b, userId)
  }

  /** Whether `b` is an APPROVED booking of item `itemId`. */
  predicate IsApprovedBookingOf(b: Booking, itemId: int) {
    b.status == APPROVED && b.item.id == Some(itemId)
  }

  /** `b` is stored in the bookings table and is an APPROVED booking of item `itemId`. */
  predicate StoredApprovedBookingOf(db: Db, itemId: int, b: Booking) {
    IsApprovedBookingOf(b, itemId) && exists k :: k in db.bookings && db.bookings[k] == b
  }

  /**
   * `bs` holds the rows of the query for an item's approved bookings
   * (`findAllByItem` in the server, `findAllByItemIdAndStatus(itemId, APPROVED)`
   * in the monolith): each row is a stored approved booking of the item, and
   * each stored approved booking of the item is a row.
   */
  ghost predicate ApprovedBookingsOf(db: Db, itemId: int, bs: seq<Booking>) {
    && (forall i :: 0 <= i < |bs| ==> StoredApprovedBookingOf(db, itemId, bs[i]))
    && (forall b :: StoredApprovedBookingOf(db, itemId, b) ==> b in bs)
  }

  /** The status an owner's decision sets: `approved ? APPROVED : REJECTED`. */
  function StatusByApprove(approved: bool): (s: BookingStatus)
    ensures s != BookingStatus.WAITING
    ensures s == APPROVED <==> approved
    ensures s == BookingStatus.REJECTED <==> !approved
  {
    if approved then APPROVED else BookingStatus.REJECTED
  }

  /** The booking with `status` replaced and every other field kept. */
  function WithStatus(b: Booking, status: BookingStatus): (r: Booking)
    ensures r.status == status
    ensures r.id == b.id && r.start == b.start && r.end == b.end
    ensures r.item == b.item && r.bookerId == b.bookerId
  {
    b.(status := status)
  }
}

=== FILE: item_validator.dfy ===
/**
 * The monolith's `ItemValidatorImpl`: the caller must exist, only the owner
 * may edit, an update must change something, and a comment needs text and
 * an approved booking of the item that has ended.
 */
module ItemValidator {
  import opened Common
  import opened Domain
  import opened Text

  /** The body of an item update; every field may be null. */
  datatype ItemUpdateDto = ItemUpdateDto(
    name: Option<string>,
    description: Option<string>,
    available: Option<bool>,
    requestId: Option<int>)

  /** `validateUserId`: the user must exist. */
  function ValidateUserId(db: Db, userId: int): (o: Outcome)
    ensures o.Pass? <==> userId in db.users
    ensures o.Fail? ==> o.error == NotFound
  {
    if userId !in db.users then Fail(NotFound) else Pass
  }

  /** `validateOwner`: the item's owner must be the caller. */
  function ValidateOwner(item: Item, userId: int): (o: Outcome)
    ensures o.Pass? <==> item.ownerId == userId
    ensures o.Fail? ==> o.error == Forbidden
  {
    if item.ownerId != userId then Fail(Forbidden) else Pass
  }

  /** `validateUpdateDto`: at least one field must be given; a null body throws on the first getter. */
  function ValidateUpdateDto(dto: Option<ItemUpdateDto>): (o: Outcome)
    ensures dto.None? ==> o == Fail(NullValue)
    ensures o.Pass? <==>
              dto.Some? && (dto.value.name.Some? || dto.value.description.Some?
                            || dto.value.available.Some? || dto.value.requestId.Some?)
    ensures dto.Some? && o.Fail? ==> o.error == IllegalArgument
  {
    match dto
    case None => Fail(NullValue)
    case Some(d) =>
      if d.name.None? && d.description.None? && d.available.None? && d.requestId.None? then Fail(IllegalArgument)
      else Pass
  }

  /**
   * `existsByItemIdAndBookerIdAndStatusAndEndIsBefore(itemId, userId, APPROVED, now)`:
   * an approved booking of the item by the user has ended.
   */
  predicate HasApprovedPastBooking(db: Db, itemId: int, userId: int, now: Time) {
    exists k :: k in db.bookings && db.bookings[k].item.id == Some(itemId) && db.bookings[k].bookerId == userId
                && db.bookings[k].status == APPROVED && db.bookings[k].end < now
  }

  /** `validateCommentInput`: text that is present and not blank, then an approved finished booking. */
  function ValidateCommentInput(db: Db, text: Option<string>, itemId: int, userId: int, now: Time): (o: Outcome)
    ensures text.None? || IsBlank(text.value) ==> o == Fail(IllegalArgument)
    ensures o.Pass? <==> text.Some? && !IsBlank(text.value) && HasApprovedPastBooking(db, itemId, userId, now)
    ensures o.Fail? && text.Some? && !IsBlank(text.value) ==> o.error == BadRequest
  {
    if text.None? || Trim(text.value) == [] then Fail(IllegalArgument)
    else if !HasApprovedPastBooking(db, itemId, userId, now) then Fail(BadRequest)
    else Pass
  }
}

=== FILE: legacy_item.dfy ===
/**
 * The monolith's first item repository (`item/ItemRepositoryImpl`): a map
 * from id to item, ids generated as one past the largest key, deletion
 * guarded by ownership, and a text search over the available items.
 */
module LegacyItemRepository {
  import opened Common
  import opened Domain
  import opened Text

  /** The repository's storage. */
  type ItemStore = map<int, Item>

  /** Neither end of `s` is a character `trim` would remove. */
  predicate HasTrimmedEnds(s: string) {
    s == [] || (!IsTrimmable(s[0]) && !IsTrimmable(s[|s| - 1]))
  }

  /** `text.trim().toLowerCase()`: the form the search compares against. */
  function Normalize(text: string): (r: string)
    ensures r == [] <==> IsBlank(text)
  {
    LowerCase(Trim(text))
  }

  /** Lower-casing never turns a trimmable character into a kept one, or back, and is idempotent. */
  lemma LowerKeepsTrimmable(c: char)
    ensures IsTrimmable(Lower(c)) <==> IsTrimmable(c)
    ensures Lower(Lower(c)) == Lower(c)
  {
  }

  /** Lower-casing keeps trimmed ends trimmed. */
  lemma LowerCaseKeepsEnds(t: string)
    requires HasTrimmedEnds(t)
    ensures HasTrimmedEnds(LowerCase(t))
  {
    if t != [] {
      LowerKeepsTrimmable(t[0]);
      LowerKeepsTrimmable(t[|t| - 1]);
    }
  }

  /** Normalised text has no trimmable character at either end. */
  lemma NormalizedTextIsTrimmed(text: string)
    ensures HasTrimmedEnds(Normalize(text))
  {
    LowerCaseKeepsEnds(Trim(text));
  }

  /** Text that starts and ends with a kept character is its own trim. */
  lemma TrimKeepsTrimmedText(s: string)
    requires HasTrimmedEnds(s)
    ensures Trim(s) == s
  {
    if s != [] {
      assert TrimStart(s) == s;
      assert TrimEnd(s) == s;
    }
  }

  /** Lower-casing twice is lower-casing once. */
  lemma LowerCaseIsIdempotent(s: string)
    ensures LowerCase(LowerCase(s)) == LowerCase(s)
  {
    forall i | 0 <= i < |s|
      ensures LowerCase(LowerCase(s))[i] == LowerCase(s)[i]
    {
      LowerKeepsTrimmable(s[i]);
    }
  }

  /** Text without surrounding trimmable characters is normalised by lower-casing alone. */
  lemma NormalizeTrimmedText(text: string)
    requires HasTrimmedEnds(text)
    ensures Normalize(text) == LowerCase(text)
  {
    TrimKeepsTrimmedText(text);
  }

  /** Normalising normalised text changes nothing. */
  lemma NormalizeIsIdempotent(text: string)
    ensures Normalize(Normalize(text)) == Normalize(text)
  {
    NormalizedTextIsTrimmed(text);
    NormalizeTrimmedText(Normalize(text));
    LowerCaseIsIdempotent(Trim(text));
  }

  /** `findByUserId`: the items whose owner is `userId`. */
  function FindByUserId(items: ItemStore, userId: int): (r: set<Item>)
    ensures forall item :: item in r ==> item.ownerId == userId
    ensures forall k :: k in items && items[k].ownerId == userId ==> items[k] in r
    ensures forall item :: item in r ==> exists k :: k in items && items[k] == item
  {
    set k | k in items && items[k].ownerId == userId :: items[k]
  }

  /**
   * `saveItem`: refuses null; an item without an id takes one past the
   * largest key (1 for an empty store); the item is stored under its id.
   */
  function SaveItem(items: ItemStore, item: Option<Item>): (r: Result<(ItemStore, Item)>)
    ensures r.Err? <==> item.None?
    ensures r.Err? ==> r.error == IllegalArgument
    ensures r.Ok? ==> var (items', saved) := r.value;
                      && saved.id.Some? && items' == items[saved.id.value := saved]
                      && saved == (if item.value.id.None? then item.value.(id := saved.id) else item.value)
    ensures r.Ok? && item.value.id.None? ==> r.value.1.id.value !in items
    ensures r.Ok? && items == map[] && item.value.id.None? ==> r.value.1.id == Some(1)
    ensures r.Ok? && item.value.id.None? ==>
              && (forall k :: k in items ==> k < r.value.1.id.value)
              && (items != map[] ==> r.value.1.id.value - 1 in items)
  {
    match item
    case None => Err(IllegalArgument)
    case Some(it) =>
      var saved := if it.id.None? then it.(id := Some(NextKey(items))) else it;
      Ok((items[saved.id.value := saved], saved))
  }

  /**
   * `deleteByUserIdAndItemId`: NoSuchElement for a missing item,
   * IllegalState for another user's item, otherwise that key is removed.
   */
  function DeleteByUserIdAndItemId(items: ItemStore, userId: int, itemId: int): (r: Result<ItemStore>)
    ensures itemId !in items ==> r == Err(NoSuchElement)
    ensures itemId in items && items[itemId].ownerId != userId ==> r == Err(IllegalState)
    ensures r.Ok? <==> itemId in items && items[itemId].ownerId == userId
    ensures r.Ok? ==> r.value == items - {itemId} && |r.value| == |items| - 1
  {
    if itemId !in items then Err(NoSuchElement)
    else if items[itemId].ownerId != userId then Err(IllegalState)
    else Ok(items - {itemId})
  }

  /** `findById`: null for a null or non-positive id, otherwise the map lookup. */
  function FindById(items: ItemStore, itemId: Option<int>): (r: Option<Item>)
    ensures r.Some? <==> itemId.Some? && itemId.value > 0 && itemId.value in items
    ensures r.Some? ==> r.value == items[itemId.value]
  {
    if itemId.None? || itemId.value <= 0 then None
    else if itemId.value in items then Some(items[itemId.value])
    else None
  }

  /** `findAllByUserId`: nothing for a null or non-positive id, otherwise the owner's items. */
  function FindAllByUserId(items: ItemStore, userId: Option<int>): (r: set<Item>)
    ensures userId.None? || userId.value <= 0 ==> r == {}
    ensures userId.Some? && userId.value > 0 ==> r == FindByUserId(items, userId.value)
  {
    if userId.None? || userId.value <= 0 then {}
    else set k | k in items && items[k].ownerId == userId.value :: items[k]
  }

  /** A nullable column whose lower-cased value contains `n`. */
  predicate ColumnContains(column: Option<string>, n: string) {
    column.Some? && Contains(LowerCase(column.value), n)
  }

  /** The search's filter: the lower-cased name or description contains `n`. */
  predicate IsHit(item: Item, n: string) {
    ColumnContains(item.name, n) || ColumnContains(item.description, n)
  }

  /**
   * The filter dereferences a null column: always for a null name, and for
   * a null description when the name does not match (`||` short-circuits).
   */
  predicate DereferencesNull(item: Item, n: string) {
    item.name.None? || (!Contains(LowerCase(item.name.value), n) && item.description.None?)
  }

  /**
   * `searchAvailableByText`: nothing for null or blank text; otherwise the
   * available items whose name or description contains the normalised text.
   * An available item with a null column the filter reaches makes it throw.
   */
  function SearchAvailableByText(items: ItemStore, text: Option<string>): (r: Result<set<Item>>)
    ensures text.None? || IsBlank(text.value) ==> r == Ok({})
    ensures r.Err? <==>
              && text.Some? && !IsBlank(text.value)
              && exists k :: k in items && items[k].available == Some(true) && DereferencesNull(items[k], Normalize(text.value))
    ensures r.Err? ==> r.error == NullValue
    ensures r.Ok? && text.Some? && !IsBlank(text.value) ==>
              && (forall item :: item in r.value ==> item.available == Some(true) && IsHit(item, Normalize(text.value)))
              && (forall k :: k in items && items[k].available == Some(true) && IsHit(items[k], Normalize(text.value))
                    ==> items[k] in r.value)
              && (forall item :: item in r.value ==> exists k :: k in items && items[k] == item)
  {
    if text.None? || Trim(text.value) == [] then Ok({})
    else
      var n := Normalize(text.value);
      if exists k :: k in items && items[k].available == Some(true) && DereferencesNull(items[k], n) then Err(NullValue)
      else Ok(set k | k in items && items[k].available == Some(true) && IsHit(items[k], n) :: items[k])
  }
}

/**
 * The monolith's first item service (`item/ItemServiceImpl`), on the
 * repository above and the minimal user repository. Ids must be positive,
 * only the owner may edit or delete, and an edit overwrites every field.
 */
module LegacyItemService {
  import opened Common
  import opened Domain
  import opened Text
  import opened LegacyItemRepository
  import InMemoryUserRepository
  import SimpleUserRepository
  import ServerItemService

  /** The item fields a request carries; `toEntity` copies them into a new entity. */
  datatype ItemDto = ItemDto(
    id: Option<int>,
    name: Option<string>,
    description: Option<string>,
    available: Option<bool>,
    requestId: Option<int>)

  /** `getItems`: the caller's items. */
  function GetItems(items: ItemStore, userId: int): (r: set<Item>)
    ensures forall item :: item in r ==> item.ownerId == userId
    ensures forall k :: k in items && items[k].ownerId == userId ==> items[k] in r
    ensures forall item :: item in r ==> exists k :: k in items && items[k] == item
  {
    FindByUserId(items, userId)
  }

  /** `userExists`: false for a null or non-positive id, otherwise the user repository's `existsById`. */
  predicate UserExists(users: InMemoryUserRepository.UserStore, userId: Option<int>) {
    userId.Some? && userId.value > 0 && SimpleUserRepository.ExistsById(users, userId)
  }

  /** `addItem`: UserNotFound unless the user exists; the item is saved with the caller as owner. */
  function AddItem(items: ItemStore, users: InMemoryUserRepository.UserStore, dto: ItemDto, userId: Option<int>)
    : (r: Result<(ItemStore, Item)>)
    ensures r.Err? <==> !(userId.Some? && userId.value > 0 && userId.value in users.storage)
    ensures r.Err? ==> r.error == UserNotFound
    ensures r.Ok? ==> var (items', saved) := r.value;
                      && saved.ownerId == userId.value
                      && saved.name == dto.name && saved.description == dto.description
                      && saved.available == dto.available && saved.requestId == dto.requestId
                      && saved.id.Some? && items' == items[saved.id.value := saved]
                      && (dto.id.None? ==> saved.id.value !in items)
    ensures r.Ok? && dto.id.None? ==>
              && (forall k :: k in items ==> k < r.value.1.id.value)
              && (items != map[] ==> r.value.1.id.value - 1 in items)
  {
    if !UserExists(users, userId) then Err(UserNotFound)
    else
      var item := Item(dto.id, dto.name, dto.description, dto.available, userId.value, dto.requestId);
      SaveItem(items, Some(item))
  }

  /** `deleteItem`: IllegalArgument for a non-positive id before the store is looked at, then the repository's delete. */
  function DeleteItem(items: ItemStore, userId: int, itemId: int): (r: Result<ItemStore>)
    ensures userId <= 0 || itemId <= 0 ==> r == Err(IllegalArgument)
    ensures r.Ok? <==> userId > 0 && itemId > 0 && itemId in items && items[itemId].ownerId == userId
    ensures r.Ok? ==> r.value == items - {itemId}
    ensures userId > 0 && itemId > 0 && itemId !in items ==> r == Err(NoSuchElement)
    ensures userId > 0 && itemId > 0 && itemId in items && items[itemId].ownerId != userId ==> r == Err(IllegalState)
  {
    if userId <= 0 || itemId <= 0 then Err(IllegalArgument)
    else DeleteByUserIdAndItemId(items, userId, itemId)
  }

  /**
   * `updateItem`: NoSuchElement unless `findById` finds the item,
   * IllegalArgument unless the caller owns it; then name, description,
   * availability and request are all replaced, nulls included.
   */
  function UpdateItem(items: ItemStore, itemId: Option<int>, dto: ItemDto, userId: Option<int>)
    : (r: Result<(ItemStore, Item)>)
    ensures FindById(items, itemId).None? ==> r == Err(NoSuchElement)
    ensures FindById(items, itemId).Some? && userId != Some(FindById(items, itemId).value.ownerId) ==> r == Err(IllegalArgument)
    ensures r.Ok? <==> FindById(items, itemId).Some? && userId == Some(FindById(items, itemId).value.ownerId)
    ensures r.Ok? ==> var (items', saved) := r.value;
                      var prev := items[itemId.value];
                      && saved.name == dto.name && saved.description == dto.description
                      && saved.available == dto.available && saved.requestId == dto.requestId
                      && saved.ownerId == prev.ownerId
                      && (prev.id == itemId ==> saved.id == itemId && items' == items[itemId.value := saved])
  {
    match FindById(items, itemId)
    case None => Err(NoSuchElement)
    case Some(existing) =>
      if userId != Some(existing.ownerId) then Err(IllegalArgument)
      else
        var updated := existing.(name := dto.name, description := dto.description,
                                 available := dto.available, requestId := dto.requestId);
        SaveItem(items, Some(updated))
  }

  /** `getItemById`: the item, or NoSuchElement (also for a null or non-positive id). */
  function GetItemById(items: ItemStore, itemId: Option<int>): (r: Result<Item>)
    ensures r.Ok? <==> itemId.Some? && itemId.value > 0 && itemId.value in items
    ensures r.Ok? ==> r.value == items[itemId.value]
    ensures r.Err? ==> r.error == NoSuchElement
  {
    match FindById(items, itemId)
    case None => Err(NoSuchElement)
    case Some(item) => Ok(item)
  }

  /** `getItemsByOwner`: IllegalArgument for a null or non-positive id, otherwise the owner's items. */
  function GetItemsByOwner(items: ItemStore, userId: Option<int>): (r: Result<set<Item>>)
    ensures r.Err? <==> userId.None? || userId.value <= 0
    ensures r.Err? ==> r.error == IllegalArgument
    ensures r.Ok? ==> forall item :: item in r.value ==> item.ownerId == userId.value
    ensures r.Ok? ==> forall k :: k in items && items[k].ownerId == userId.value ==> items[k] in r.value
    ensures r.Ok? ==> forall item :: item in r.value ==> exists k :: k in items && items[k] == item
  {
    if userId.None? || userId.value <= 0 then Err(IllegalArgument)
    else Ok(FindAllByUserId(items, userId))
  }

  /**
   * `searchItems`: nothing for null or blank text; otherwise the repository
   * search on the normalised text. The repository normalises again, which
   * changes nothing, so the service answers as the repository would.
   */
  function SearchItems(items: ItemStore, text: Option<string>): (r: Result<set<Item>>)
    ensures text.None? || IsBlank(text.value) ==> r == Ok({})
    ensures r == SearchAvailableByText(items, text)
  {
    if text.None? || Trim(text.value) == [] then Ok({})
    else
      var n := Normalize(text.value);
      NormalizeIsIdempotent(text.value);
      SearchAvailableByText(items, Some(n))
  }

  /** An item edited by its owner is what a later lookup returns, with every field from the request. */
  lemma UpdatedItemIsFound(items: ItemStore, itemId: int, dto: ItemDto, userId: int)
    requires itemId > 0 && itemId in items && items[itemId].id == Some(itemId) && items[itemId].ownerId == userId
    ensures var r := UpdateItem(items, Some(itemId), dto, Some(userId));
            && r.Ok?
            && GetItemById(r.value.0, Some(itemId)) == Ok(r.value.1)
            && r.value.1.name == dto.name && r.value.1.available == dto.available
  {
  }

  /**
   * After a successful delete the item can no longer be fetched, and its
   * owner's listing holds exactly the owner's other entries.
   */
  lemma DeletedItemIsGone(items: ItemStore, userId: int, itemId: int)
    requires DeleteItem(items, userId, itemId).Ok?
    ensures var items' := DeleteItem(items, userId, itemId).value;
            && GetItemById(items', Some(itemId)) == Err(NoSuchElement)
            && GetItemsByOwner(items', Some(userId)).value
               == (set k | k in items && k != itemId && items[k].ownerId == userId :: items[k])
  {
    var items' := DeleteItem(items, userId, itemId).value;
    var listed := GetItemsByOwner(items', Some(userId)).value;
    var others := set k | k in items && k != itemId && items[k].ownerId == userId :: items[k];
    forall item | item in listed
      ensures item in others
    {
      var k :| k in items' && items'[k] == item;
      assert k in items && k != itemId && items[k].ownerId == userId;
    }
    forall item | item in others
      ensures item in listed
    {
      var k :| k in items && k != itemId && items[k].ownerId == userId && items[k] == item;
      assert k in items' && items'[k] == item;
    }
  }

  /** An item just added is listed among its owner's items. */
  lemma AddedItemIsListed(items: ItemStore, users: InMemoryUserRepository.UserStore, dto: ItemDto, userId: int)
    requires userId > 0 && userId in users.storage
    ensures var r := AddItem(items, users, dto, Some(userId));
            r.Ok? && r.value.1 in GetItemsByOwner(r.value.0, Some(userId)).value
  {
    var (items', saved) := AddItem(items, users, dto, Some(userId)).value;
    assert saved.id.value in items' && items'[saved.id.value] == saved;
  }

  /** For trimmed text, the legacy filter and the server's SQL condition accept the same items. */
  lemma HitIsServerMatch(item: Item, text: string)
    requires Normalize(text) == LowerCase(text)
    ensures ServerItemService.MatchesSearch(item, text) <==> IsHit(item, Normalize(text))
  {
    if item.name.Some? {
      LikeIsContainsIgnoreCase(item.name.value, text);
    }
    if item.description.Some? {
      LikeIsContainsIgnoreCase(item.description.value, text);
    }
  }

  /**
   * Under the entity's constraints (name, description and availability
   * never null), the legacy search for trimmed text finds exactly the
   * items the server's SQL search finds.
   */
  lemma SearchAgreesWithServer(db: Db, text: string)
    requires text != [] && HasTrimmedEnds(text)
    requires forall k :: k in db.items ==>
               db.items[k].name.Some? && db.items[k].description.Some? && db.items[k].available.Some?
    ensures SearchItems(db.items, Some(text)) == ServerItemService.FindBySearch(db, text)
  {
    NormalizeTrimmedText(text);
    var legacy := SearchItems(db.items, Some(text));
    var server := ServerItemService.FindBySearch(db, text);
    assert legacy.Ok? && server.Ok?;
    forall item | item in legacy.value
      ensures item in server.value
    {
      var k :| k in db.items && db.items[k] == item;
      HitIsServerMatch(item, text);
    }
    forall item | item in server.value
      ensures item in legacy.value
    {
      var k :| k in db.items && db.items[k] == item;
      HitIsServerMatch(item, text);
    }
    assert legacy.value == server.value;
  }
}

=== FILE: mappers.dfy ===
/**
 * The server's `BookingMapper` and `ItemMapper`. The two call each other
 * (a booking DTO embeds an item DTO, and an item DTO may embed booking
 * DTOs), so they share one module.
 */
module Mappers {
  import opened Common
  import opened Domain

  /** The body of a create-booking request. */
  datatype CreateBookingDto = CreateBookingDto(itemId: int, start: Time, end: Time)

  /** The body of a create/update item request; every field may be null. */
  datatype RequestItemDto = RequestItemDto(
    name: Option<string>,
    description: Option<string>,
    available: Option<bool>,
    requestId: Option<int>)

  /** A booking as returned to clients; the booker is given by id. */
  datatype BookingDto = BookingDto(
    id: Option<int>,
    start: Time,
    end: Time,
    item: ResponseItemDto,
    bookerId: int,
    status: BookingStatus)

  /** An item as returned to clients, with optional neighbouring bookings and comments. */
  datatype ResponseItemDto = ResponseItemDto(
    id: Option<int>,
    name: Option<string>,
    description: Option<string>,
    available: Option<bool>,
    lastBooking: Option<BookingDto>,
    nextBooking: Option<BookingDto>,
    comments: Option<set<Comment>>)

  /** An item in its owner's listing, with the dates of its last and next bookings. */
  datatype OwnerItemDto = OwnerItemDto(
    id: Option<int>,
    name: Option<string>,
    description: Option<string>,
    available: Option<bool>,
    lastStart: Option<Time>,
    lastEnd: Option<Time>,
    nextStart: Option<Time>,
    nextEnd: Option<Time>)

  /** An item offered in answer to an item request. */
  datatype ItemDtoForRequestAnswer = ItemDtoForRequestAnswer(id: Option<int>, name: Option<string>, ownerId: int)

  /** 1 for a present reference, 0 for null; the termination measure of the two mutually calling mappers. */
  function Present<T>(o: Option<T>): nat {
    if o.Some? then 1 else 0
  }

  /** `BookingMapper.toBooking`: a new, unsaved booking in status WAITING. */
  function ToBooking(dto: CreateBookingDto, item: Item, bookerId: int): (b: Booking)
    ensures b.id == None && b.status == BookingStatus.WAITING
    ensures b.start == dto.start && b.end == dto.end && b.item == item && b.bookerId == bookerId
  {
    Booking(None, dto.start, dto.end, item, bookerId, BookingStatus.WAITING)
  }

  /** `BookingMapper.toBookingDto(Booking)`: null maps to null; the item is embedded without bookings or comments. */
  function ToBookingDto(booking: Option<Booking>): (r: Option<BookingDto>)
    ensures booking.None? <==> r.None?
    ensures booking.Some? ==>
              var b := booking.value;
              var d := r.value;
              && d.id == b.id && d.start == b.start && d.end == b.end
              && d.status == b.status && d.bookerId == b.bookerId
              && d.item.id == b.item.id && d.item.name == b.item.name
              && d.item.description == b.item.description && d.item.available == b.item.available
              && d.item.lastBooking.None? && d.item.nextBooking.None? && d.item.comments.None?
    decreases 2 * Present(booking)
  {
    match booking
    case None => None
    case Some(b) =>
      Some(BookingDto(b.id, b.start, b.end, ToResponseItemDto(b.item, None, None, None), b.bookerId, b.status))
  }

  /** `BookingMapper.toBookingDto(Iterable)`: one DTO per booking, in order; a null collection gives an empty list. */
  function ToBookingDtos(bookings: Option<seq<Booking>>): (r: seq<Option<BookingDto>>)
    ensures bookings.None? ==> r == []
    ensures bookings.Some? ==> |r| == |bookings.value|
    ensures bookings.Some? ==> forall i :: 0 <= i < |r| ==> r[i] == ToBookingDto(Some(bookings.value[i]))
  {
    match bookings
    case None => []
    case Some(bs) => MapBookings(bs)
  }

  /** The `forEach` loop of the collection mapper. */
  function MapBookings(bs: seq<Booking>): (r: seq<Option<BookingDto>>)
    ensures |r| == |bs|
    ensures forall i :: 0 <= i < |r| ==> r[i] == ToBookingDto(Some(bs[i]))
  {
    if bs == [] then [] else [ToBookingDto(Some(bs[0]))] + MapBookings(bs[1..])
  }

  /** `ItemMapper.toResponseItemDto(item, comments, lastBooking, nextBooking)`. */
  function ToResponseItemDto(item: Item, comments: Option<set<Comment>>,
                             lastBooking: Option<Booking>, nextBooking: Option<Booking>): (r: ResponseItemDto)
    ensures r.id == item.id && r.name == item.name && r.description == item.description && r.available == item.available
    ensures r.lastBooking.Some? <==> lastBooking.Some?
    ensures r.nextBooking.Some? <==> nextBooking.Some?
    ensures r.lastBooking == ToBookingDto(lastBooking) && r.nextBooking == ToBookingDto(nextBooking)
    ensures r.comments == comments
    decreases 2 * (Present(lastBooking) + Present(nextBooking)) + 1
  {
    ResponseItemDto(item.id, item.name, item.description, item.available,
                    ToBookingDto(lastBooking), ToBookingDto(nextBooking), comments)
  }

  /** `ItemMapper.toResponseItemDto(item, comments)`: no booking information. */
  function ToResponseItemDtoWithComments(item: Item, comments: Option<set<Comment>>): (r: ResponseItemDto)
    ensures r.lastBooking.None? && r.nextBooking.None?
    ensures r.id == item.id && r.name == item.name && r.description == item.description && r.available == item.available
    ensures r.comments == comments
  {
    ResponseItemDto(item.id, item.name, item.description, item.available, None, None, comments)
  }

  /** `ItemMapper.toResponseItemDto(item)`: no booking information and no comments. */
  function ToResponseItemDtoPlain(item: Item): (r: ResponseItemDto)
    ensures r.lastBooking.None? && r.nextBooking.None? && r.comments.None?
    ensures r.id == item.id && r.name == item.name && r.description == item.description && r.available == item.available
  {
    ResponseItemDto(item.id, item.name, item.description, item.available, None, None, None)
  }

  /** The two short overloads are the full mapper called with null bookings. */
  lemma ShortOverloadsOmitBookings(item: Item, comments: Option<set<Comment>>)
    ensures ToResponseItemDtoWithComments(item, comments) == ToResponseItemDto(item, comments, None, None)
    ensures ToResponseItemDtoPlain(item) == ToResponseItemDto(item, None, None, None)
  {
  }

  /** `ItemMapper.toOwnerItemDto`: item fields, plus start and end of each neighbouring booking when present. */
  function ToOwnerItemDto(item: Item, lastBooking: Option<Booking>, nextBooking: Option<Booking>): (r: OwnerItemDto)
    ensures r.id == item.id && r.name == item.name && r.description == item.description && r.available == item.available
    ensures lastBooking.None? ==> r.lastStart.None? && r.lastEnd.None?
    ensures lastBooking.Some? ==> r.lastStart == Some(lastBooking.value.start) && r.lastEnd == Some(lastBooking.value.end)
    ensures nextBooking.None? ==> r.nextStart.None? && r.nextEnd.None?
    ensures nextBooking.Some? ==> r.nextStart == Some(nextBooking.value.start) && r.nextEnd == Some(nextBooking.value.end)
  {
    var lastStart := if lastBooking.Some? then Some(lastBooking.value.start) else None;
    var lastEnd := if lastBooking.Some? then Some(lastBooking.value.end) else None;
    var nextStart := if nextBooking.Some? then Some(nextBooking.value.start) else None;
    var nextEnd := if nextBooking.Some? then Some(nextBooking.value.end) else None;
    OwnerItemDto(item.id, item.name, item.description, item.available, lastStart, lastEnd, nextStart, nextEnd)
  }

  /** `ItemMapper.toItemDtoForRequestAnswer`: id, name and the owner's id. */
  function ToItemDtoForRequestAnswer(item: Item): (r: ItemDtoForRequestAnswer)
    ensures r.id == item.id && r.name == item.name && r.ownerId == item.ownerId
  {
    ItemDtoForRequestAnswer(item.id, item.name, item.ownerId)
  }

  /** `ItemMapper.toItem`: fields from the request body, id, owner and request from the caller. */
  function ToItem(dto: RequestItemDto, id: Option<int>, ownerId: int, requestId: Option<int>): (r: Item)
    ensures r.id == id && r.ownerId == ownerId && r.requestId == requestId
    ensures r.name == dto.name && r.description == dto.description && r.available == dto.available
  {
    Item(id, dto.name, dto.description, dto.available, ownerId, requestId)
  }

  /** Mapping an item built from a request body shows that body's fields back in the owner's listing. */
  lemma OwnerViewOfBuiltItem(dto: RequestItemDto, id: Option<int>, ownerId: int, requestId: Option<int>)
    ensures var v := ToOwnerItemDto(ToItem(dto, id, ownerId, requestId), None, None);
            && v.id == id && v.name == dto.name && v.description == dto.description && v.available == dto.available
            && v.lastStart.None? && v.nextStart.None?
  {
  }
}

=== FILE: monolith_booking_service.dfy ===
/**
 * The monolith's `BookingServiceImpl`. Creation runs the static
 * `BookingValidator` (time window against `now`, then availability);
 * approval, lookup and the listings are written out again and behave as
 * the server's do.
 */
module MonolithBookingService {
  import opened Common
  import opened Domain
  import opened Temporal
  import opened Mappers
  import MonolithBookingValidator
  import ServerBookingService

  /**
   * `createBooking`: the item, then the booker must exist; the validator
   * then needs a window that is not empty and does not start in the past,
   * and an available item.
   */
  function CreateBooking(db: Db, dto: CreateBookingDto, userId: int, now: Time): (r: Result<(Db, Booking)>)
    ensures dto.itemId !in db.items ==> r == Err(NotFound)
    ensures dto.itemId in db.items && userId !in db.users ==> r == Err(NotFound)
    ensures dto.itemId in db.items && userId in db.users && !(dto.start < dto.end && now <= dto.start)
            ==> r == Err(Validation)
    ensures r.Ok? <==>
              && dto.itemId in db.items && userId in db.users
              && dto.start < dto.end && now <= dto.start
              && db.items[dto.itemId].available == Some(true)
    ensures r.Ok? ==>
              var (db', b) := r.value;
              && b.status == BookingStatus.WAITING
              && b.start == dto.start && b.end == dto.end
              && b.item == db.items[dto.itemId] && b.bookerId == userId
              && b.id.Some? && b.id.value !in db.bookings
              && db' == db.(bookings := db.bookings[b.id.value := b])
  {
    if dto.itemId !in db.items then Err(NotFound)
    else if userId !in db.users then Err(NotFound)
    else
      var booking :- MonolithBookingValidator.ValidateBooking(ToBooking(dto, db.items[dto.itemId], userId), now);
      Ok(ServerBookingService.SaveNewBooking(db, booking))
  }

  /** `approve`: the same owner-only rule as the server, with no check of the current status. */
  function Approve(db: Db, userId: int, bookingId: int, approved: bool): (r: Result<(Db, Booking)>)
    ensures r == ServerBookingService.Approve(db, userId, bookingId, approved)
  {
    if bookingId !in db.bookings then Err(NotFound)
    else
      var booking := db.bookings[bookingId];
      if booking.item.ownerId != userId then Err(ConditionsNotMet)
      else
        var decided := booking.(status := if approved then APPROVED else BookingStatus.REJECTED);
        Ok((db.(bookings := db.bookings[bookingId := decided]), decided))
  }

  /** `findBooking`: the same lookup order and access rule as the server. */
  function FindBooking(db: Db, bookingId: int, userId: int): (r: Result<Booking>)
    ensures r == ServerBookingService.FindBooking(db, bookingId, userId)
  {
    if bookingId !in db.bookings then Err(NotFound)
    else if userId !in db.users then Err(NotFound)
    else
      var booking := db.bookings[bookingId];
      if booking.bookerId == userId || booking.item.ownerId == userId then Ok(booking) else Err(ConditionsNotMet)
  }

  /** `getBookingsByUser`: the same filter as the server. */
  function GetBookingsByUser(db: Db, userId: int, state: States, now: Time): (r: set<Booking>)
    ensures r == ServerBookingService.GetBookingsByUser(db, userId, state, now)
  {
    set k | k in db.bookings && MatchesState(state, db.bookings[k], now) && db.bookings[k].bookerId == userId
      :: db.bookings[k]
  }

  /** `getBookingsByOwner`: the same owner check and filter as the server. */
  function GetBookingsByOwner(db: Db, userId: int, state: States, now: Time): (r: Result<set<Booking>>)
    ensures r == ServerBookingService.GetBookingsByOwner(db, userId, state, now)
  {
    if userId !in db.users then Err(NotFound)
    else
      Ok(set k | k in db.bookings && IsItemOwner(db.bookings[k], userId) && MatchesState(state, db.bookings[k], now)
           :: db.bookings[k])
  }

  /** Whatever the monolith creates, the server creates identically from the same request. */
  lemma MonolithCreationIsStricter(db: Db, dto: CreateBookingDto, userId: int, now: Time)
    requires CreateBooking(db, dto, userId, now).Ok?
    ensures ServerBookingService.CreateBooking(db, dto, userId) == CreateBooking(db, dto, userId, now)
  {
  }

  /**
   * The two creations disagree exactly on bookable items whose window is
   * empty, inverted or already started: the server accepts those.
   */
  lemma CreationsDifferOnlyInTime(db: Db, dto: CreateBookingDto, userId: int, now: Time)
    requires ServerBookingService.CreateBooking(db, dto, userId).Ok?
    ensures CreateBooking(db, dto, userId, now).Err? <==> !(dto.start < dto.end && now <= dto.start)
  {
  }
}

=== FILE: monolith_item_service.dfy ===
/**
 * The monolith's JPA-backed `ItemServiceImpl`: the validated partial update,
 * the owner's listing, the trimmed search, and `fillBookingDates`, which
 * picks the latest finished and the earliest upcoming approved booking.
 */
module MonolithItemService {
  import opened Common
  import opened Domain
  import opened Text
  import opened ItemValidator
  import ServerItemService
  import Mappers

  /** `applyUpdates`: a null body changes nothing; each non-null field overwrites the stored one. */
  function ApplyUpdates(item: Item, dto: Option<ItemUpdateDto>): (r: Item)
    ensures dto.None? ==> r == item
    ensures r.id == item.id && r.ownerId == item.ownerId
    ensures dto.Some? ==>
              && (dto.value.name.Some? ==> r.name == dto.value.name)
              && (dto.value.name.None? ==> r.name == item.name)
              && (dto.value.description.Some? ==> r.description == dto.value.description)
              && (dto.value.description.None? ==> r.description == item.description)
              && (dto.value.available.Some? ==> r.available == dto.value.available)
              && (dto.value.available.None? ==> r.available == item.available)
              && (dto.value.requestId.Some? ==> r.requestId == dto.value.requestId)
              && (dto.value.requestId.None? ==> r.requestId == item.requestId)
  {
    match dto
    case None => item
    case Some(d) =>
      var a := if d.name.Some? then item.(name := d.name) else item;
      var b := if d.description.Some? then a.(description := d.description) else a;
      var c := if d.available.Some? then b.(available := d.available) else b;
      if d.requestId.Some? then c.(requestId := d.requestId) else c
  }

  /** Applying the same body twice is applying it once. */
  lemma ApplyUpdatesIsIdempotent(item: Item, dto: Option<ItemUpdateDto>)
    ensures ApplyUpdates(ApplyUpdates(item, dto), dto) == ApplyUpdates(item, dto)
  {
  }

  /** A body of nulls changes nothing. */
  lemma ApplyUpdatesWithNullsIsIdentity(item: Item)
    ensures ApplyUpdates(item, Some(ItemUpdateDto(None, None, None, None))) == item
  {
  }

  /**
   * `updateItem`: caller exists, body changes something, item exists,
   * caller owns it; then the updates are applied and saved.
   */
  function UpdateItem(db: Db, itemId: int, dto: Option<ItemUpdateDto>, userId: int): (r: Result<(Db, Item)>)
    ensures userId !in db.users ==> r == Err(NotFound)
    ensures userId in db.users && ValidateUpdateDto(dto).Fail? ==> r == Err(ValidateUpdateDto(dto).error)
    ensures userId in db.users && ValidateUpdateDto(dto).Pass? && itemId !in db.items ==> r == Err(NoSuchElement)
    ensures r.Ok? <==>
              && userId in db.users && ValidateUpdateDto(dto).Pass?
              && itemId in db.items && db.items[itemId].ownerId == userId
    ensures r.Err? && userId in db.users && ValidateUpdateDto(dto).Pass? && itemId in db.items ==> r.error == Forbidden
    ensures r.Ok? ==>
              var (db', item) := r.value;
              && item == ApplyUpdates(db.items[itemId], dto)
              && db' == db.(items := db.items[itemId := item])
  {
    var caller := ValidateUserId(db, userId);
    if caller.Fail? then Err(caller.error)
    else
      :- ValidateUpdateDto(dto);
      if itemId !in db.items then Err(NoSuchElement)
      else
        var existing := db.items[itemId];
        :- ValidateOwner(existing, userId);
        var updated := ApplyUpdates(existing, dto);
        Ok((db.(items := db.items[itemId := updated]), updated))
  }

  /** The null-body branch of `applyUpdates` is never reached from `updateItem`: the validator throws first. */
  lemma UpdateItemNeverAppliesNullBody(db: Db, itemId: int, userId: int)
    ensures UpdateItem(db, itemId, None, userId).Err?
  {
  }

  /**
   * The server's update and this one agree on name, description and
   * availability; they differ on the request link, which only this one
   * lets a body change.
   */
  lemma UpdatesAgreeOnSharedFields(db: Db, itemId: int, userId: int, d: ItemUpdateDto)
    requires ServerItemService.Update(db, itemId, Mappers.RequestItemDto(d.name, d.description, d.available, d.requestId), userId).Ok?
    ensures var (_, s) := ServerItemService.Update(db, itemId, Mappers.RequestItemDto(d.name, d.description, d.available, d.requestId), userId).value;
            var m := ApplyUpdates(db.items[itemId], Some(d));
            && s.name == m.name && s.description == m.description && s.available == m.available
            && s.requestId == db.items[itemId].requestId
            && (d.requestId.Some? ==> m.requestId == d.requestId)
  {
  }

  /**
   * `getItemsByOwner`: the caller must exist; then the caller's items as
   * plain DTOs. The booking dates are computed into a temporary object and
   * dropped, so they are absent here.
   */
  function GetItemsByOwner(db: Db, userId: int): (r: Result<set<Item>>)
    ensures r.Err? <==> userId !in db.users
    ensures r.Err? ==> r.error == NotFound
    ensures r.Ok? ==> forall item :: item in r.value ==> item.ownerId == userId
    ensures r.Ok? ==> forall k :: k in db.items && db.items[k].ownerId == userId ==> db.items[k] in r.value
    ensures r.Ok? ==> forall item :: item in r.value ==> exists k :: k in db.items && db.items[k] == item
  {
    var caller := ValidateUserId(db, userId);
    if caller.Fail? then Err(caller.error)
    else Ok(set k | k in db.items && db.items[k].ownerId == userId :: db.items[k])
  }

  /** The owner's listing does not depend on any booking: the computed dates never reach the result. */
  lemma OwnerListingIgnoresBookings(db: Db, userId: int, bookings: map<int, Booking>)
    ensures GetItemsByOwner(db.(bookings := bookings), userId) == GetItemsByOwner(db, userId)
  {
  }

  /**
   * `searchItems`: nothing for a null or blank text; otherwise the
   * repository search with the trimmed text. Availability is not checked.
   */
  function SearchItems(db: Db, text: Option<string>): (r: set<Item>)
    ensures text.None? || IsBlank(text.value) ==> r == {}
    ensures text.Some? && !IsBlank(text.value) ==>
              && (forall item :: item in r ==> ServerItemService.MatchesSearch(item, Trim(text.value)))
              && (forall k :: k in db.items && ServerItemService.MatchesSearch(db.items[k], Trim(text.value))
                              ==> db.items[k] in r)
    ensures forall item :: item in r ==> exists k :: k in db.items && db.items[k] == item
  {
    if text.None? || Trim(text.value) == [] then {}
    else
      var t := Trim(text.value);
      set k | k in db.items && ServerItemService.MatchesSearch(db.items[k], t) :: db.items[k]
  }

  /** Unlike the server's search, this one returns an item that is not available. */
  lemma SearchKeepsUnavailableItems()
    ensures var item := Item(Some(1), Some("saw"), None, Some(false), 2, None);
            var db := Db(map[], map[1 := item], map[], {}, map[]);
            item in SearchItems(db, Some("saw"))
  {
    var item := Item(Some(1), Some("saw"), None, Some(false), 2, None);
    var db := Db(map[], map[1 := item], map[], {}, map[]);
    assert TrimStart("saw") == "saw";
    assert TrimEnd("saw") == "saw";
    assert OccursAt(UpperCase("saw"), UpperCase("saw"), 0);
    assert ServerItemService.MatchesSearch(db.items[1], Trim("saw"));
  }

  /**
   * For a trimmed, non-blank text on which the server's search succeeds,
   * the server returns exactly the available part of this search.
   */
  lemma SearchesAgreeOnAvailableItems(db: Db, text: string)
    requires Trim(text) == text && !IsBlank(text)
    requires ServerItemService.FindBySearch(db, text).Ok?
    ensures ServerItemService.FindBySearch(db, text).value
            == set item | item in SearchItems(db, Some(text)) && item.available == Some(true)
  {
    var s := ServerItemService.FindBySearch(db, text).value;
    var m := SearchItems(db, Some(text));
    forall item | item in s
      ensures item in m
    {
      var k :| k in db.items && ServerItemService.MatchesSearch(db.items[k], text)
               && db.items[k].available.value && db.items[k] == item;
    }
  }

  /** The dates `fillBookingDates` writes into an item's view; each stays null without a candidate. */
  datatype BookingDates = BookingDates(
    lastStart: Option<Time>,
    lastEnd: Option<Time>,
    nextStart: Option<Time>,
    nextEnd: Option<Time>)

  /** No finished booking before position `i` ends as late as `bs[i]`: a stable sort keeps `bs[i]` ahead of its ties. */
  predicate FirstFinishedWithEnd(bs: seq<Booking>, now: Time, i: int)
    requires 0 <= i < |bs|
  {
    forall j :: 0 <= j < i && bs[j].end < now ==> bs[j].end < bs[i].end
  }

  /** No upcoming booking before position `i` starts as early as `bs[i]`. */
  predicate FirstUpcomingWithStart(bs: seq<Booking>, now: Time, i: int)
    requires 0 <= i < |bs|
  {
    forall j :: 0 <= j < i && bs[j].start > now ==> bs[i].start < bs[j].start
  }

  /** Dropping a head that does not end later keeps a first-latest position first-latest, one further on. */
  lemma FirstFinishedPastHead(bs: seq<Booking>, now: Time, k: int)
    requires 0 <= k < |bs| - 1 && FirstFinishedWithEnd(bs[1..], now, k)
    requires bs[0].end < now ==> bs[0].end < bs[k + 1].end
    ensures FirstFinishedWithEnd(bs, now, k + 1)
  {
    forall j | 0 < j < k + 1 && bs[j].end < now
      ensures bs[j].end < bs[k + 1].end
    {
      assert bs[1..][j - 1] == bs[j];
    }
  }

  /** Dropping a head that does not start earlier keeps a first-earliest position first-earliest, one further on. */
  lemma FirstUpcomingPastHead(bs: seq<Booking>, now: Time, k: int)
    requires 0 <= k < |bs| - 1 && FirstUpcomingWithStart(bs[1..], now, k)
    requires bs[0].start > now ==> bs[k + 1].start < bs[0].start
    ensures FirstUpcomingWithStart(bs, now, k + 1)
  {
    forall j | 0 < j < k + 1 && bs[j].start > now
      ensures bs[k + 1].start < bs[j].start
    {
      assert bs[1..][j - 1] == bs[j];
    }
  }

  /**
   * The head of the finished bookings sorted by end, latest first: among
   * those with end before `now`, one with the greatest end, the earliest in
   * the list on a tie (the sort is stable).
   */
  function LatestFinished(bs: seq<Booking>, now: Time): (r: Option<Booking>)
    ensures r.None? <==> forall i :: 0 <= i < |bs| ==> bs[i].end >= now
    ensures r.Some? ==> r.value in bs && r.value.end < now
    ensures r.Some? ==> forall i :: 0 <= i < |bs| && bs[i].end < now ==> bs[i].end <= r.value.end
    ensures r.Some? ==> exists i :: 0 <= i < |bs| && bs[i] == r.value && FirstFinishedWithEnd(bs, now, i)
  {
    if bs == [] then None
    else
      var rest := LatestFinished(bs[1..], now);
      if bs[0].end < now && (rest.None? || bs[0].end >= rest.value.end) then Some(bs[0])
      else
        assert rest.Some? ==> exists i :: 0 <= i < |bs| && bs[i] == rest.value && FirstFinishedWithEnd(bs, now, i) by {
          if rest.Some? {
            var k :| 0 <= k < |bs[1..]| && bs[1..][k] == rest.value && FirstFinishedWithEnd(bs[1..], now, k);
            FirstFinishedPastHead(bs, now, k);
          }
        }
        rest
  }

  /**
   * The head of the upcoming bookings sorted by start, earliest first:
   * among those with start after `now`, one with the smallest start, the
   * earliest in the list on a tie.
   */
  function EarliestUpcoming(bs: seq<Booking>, now: Time): (r: Option<Booking>)
    ensures r.None? <==> forall i :: 0 <= i < |bs| ==> bs[i].start <= now
    ensures r.Some? ==> r.value in bs && r.value.start > now
    ensures r.Some? ==> forall i :: 0 <= i < |bs| && bs[i].start > now ==> r.value.start <= bs[i].start
    ensures r.Some? ==> exists i :: 0 <= i < |bs| && bs[i] == r.value && FirstUpcomingWithStart(bs, now, i)
  {
    if bs == [] then None
    else
      var rest := EarliestUpcoming(bs[1..], now);
      if bs[0].start > now && (rest.None? || bs[0].start <= rest.value.start) then Some(bs[0])
      else
        assert rest.Some? ==> exists i :: 0 <= i < |bs| && bs[i] == rest.value && FirstUpcomingWithStart(bs, now, i) by {
          if rest.Some? {
            var k :| 0 <= k < |bs[1..]| && bs[1..][k] == rest.value && FirstUpcomingWithStart(bs[1..], now, k);
            FirstUpcomingPastHead(bs, now, k);
          }
        }
        rest
  }

  /**
   * The finished booking with the greatest end that comes first in the list
   * is the one picked: the choice among ties is determined.
   */
  lemma LatestFinishedIsFirstLatest(bs: seq<Booking>, now: Time, i: int)
    requires 0 <= i < |bs| && bs[i].end < now
    requires forall j :: 0 <= j < |bs| && bs[j].end < now ==> bs[j].end <= bs[i].end
    requires FirstFinishedWithEnd(bs, now, i)
    ensures LatestFinished(bs, now) == Some(bs[i])
  {
  }

  /** The upcoming booking with the smallest start that comes first in the list is the one picked. */
  lemma EarliestUpcomingIsFirstEarliest(bs: seq<Booking>, now: Time, i: int)
    requires 0 <= i < |bs| && bs[i].start > now
    requires forall j :: 0 <= j < |bs| && bs[j].start > now ==> bs[i].start <= bs[j].start
    requires FirstUpcomingWithStart(bs, now, i)
    ensures EarliestUpcoming(bs, now) == Some(bs[i])
  {
  }

  /** `fillBookingDates` over the item's approved bookings. */
  function FillBookingDates(bookings: seq<Booking>, now: Time): (r: BookingDates)
    ensures r.lastStart.Some? <==> exists i :: 0 <= i < |bookings| && bookings[i].end < now
    ensures r.lastStart.Some? ==> r.lastEnd.Some? && r.lastEnd.value < now
    ensures r.lastStart.Some? ==>
              forall i :: 0 <= i < |bookings| && bookings[i].end < now ==> bookings[i].end <= r.lastEnd.value
    ensures r.nextStart.Some? <==> exists i :: 0 <= i < |bookings| && bookings[i].start > now
    ensures r.nextStart.Some? ==> r.nextEnd.Some? && r.nextStart.value > now
    ensures r.nextStart.Some? ==>
              forall i :: 0 <= i < |bookings| && bookings[i].start > now ==> r.nextStart.value <= bookings[i].start
    ensures r.lastStart.Some? <==> r.lastEnd.Some?
    ensures r.nextStart.Some? <==> r.nextEnd.Some?
    ensures r.lastStart.Some? ==>
              exists i :: 0 <= i < |bookings| && bookings[i].end < now && FirstFinishedWithEnd(bookings, now, i)
                          && r.lastStart == Some(bookings[i].start) && r.lastEnd == Some(bookings[i].end)
    ensures r.nextStart.Some? ==>
              exists i :: 0 <= i < |bookings| && bookings[i].start > now && FirstUpcomingWithStart(bookings, now, i)
                          && r.nextStart == Some(bookings[i].start) && r.nextEnd == Some(bookings[i].end)
  {
    var last := LatestFinished(bookings, now);
    var next := EarliestUpcoming(bookings, now);
    BookingDates(
      if last.Some? then Some(last.value.start) else None,
      if last.Some? then Some(last.value.end) else None,
      if next.Some? then Some(next.value.start) else None,
      if next.Some? then Some(next.value.end) else None)
  }

  /**
   * Over the rows of `findAllByItemIdAndStatus(itemId, APPROVED)`, in any
   * order, the last dates are present exactly when some stored approved
   * booking of the item has ended, and are the start and end of one with the
   * greatest end; the next dates likewise for the smallest start after `now`.
   */
  lemma DatesOfQueryComeFromApprovedBookingsOfItem(db: Db, itemId: int, bs: seq<Booking>, now: Time)
    requires ApprovedBookingsOf(db, itemId, bs)
    ensures var r := FillBookingDates(bs, now);
            && (r.lastStart.Some? <==> exists b :: StoredApprovedBookingOf(db, itemId, b) && b.end < now)
            && (r.lastStart.Some? ==>
                  exists b :: StoredApprovedBookingOf(db, itemId, b) && b.end < now
                              && r.lastStart == Some(b.start) && r.lastEnd == Some(b.end))
            && (r.lastStart.Some? ==>
                  forall b :: StoredApprovedBookingOf(db, itemId, b) && b.end < now ==> b.end <= r.lastEnd.value)
            && (r.nextStart.Some? <==> exists b :: StoredApprovedBookingOf(db, itemId, b) && b.start > now)
            && (r.nextStart.Some? ==>
                  exists b :: StoredApprovedBookingOf(db, itemId, b) && b.start > now
                              && r.nextStart == Some(b.start) && r.nextEnd == Some(b.end))
            && (r.nextStart.Some? ==>
                  forall b :: StoredApprovedBookingOf(db, itemId, b) && b.start > now ==> r.nextStart.value <= b.start)
  {
    var r := FillBookingDates(bs, now);
    forall b | StoredApprovedBookingOf(db, itemId, b)
      ensures exists j :: 0 <= j < |bs| && bs[j] == b
    {
      assert b in bs;
    }
    if r.lastStart.Some? {
      var i :| 0 <= i < |bs| && bs[i].end < now && FirstFinishedWithEnd(bs, now, i)
               && r.lastStart == Some(bs[i].start) && r.lastEnd == Some(bs[i].end);
      assert StoredApprovedBookingOf(db, itemId, bs[i]);
    }
    if r.nextStart.Some? {
      var i :| 0 <= i < |bs| && bs[i].start > now && FirstUpcomingWithStart(bs, now, i)
               && r.nextStart == Some(bs[i].start) && r.nextEnd == Some(bs[i].end);
      assert StoredApprovedBookingOf(db, itemId, bs[i]);
    }
  }

  /** A booking under way at `now` is neither the last nor the next one. */
  lemma OngoingBookingIsNeither(bs: seq<Booking>, now: Time, b: Booking)
    requires b.start <= now <= b.end
    ensures LatestFinished(bs, now) != Some(b)
    ensures EarliestUpcoming(bs, now) != Some(b)
  {
  }

  /**
   * On the server's sorted list, the server's scan and this variant pick the
   * same next booking; `last` differs, since the server counts an ongoing
   * booking as last and this variant does not.
   */
  lemma {:induction false} NextAgreesWithServerScan(bs: seq<Booking>, now: Time)
    requires ServerItemService.SortedByStart(bs)
    ensures ServerItemService.LastAndNext(bs, now).1 == EarliestUpcoming(bs, now)
  {
    if bs != [] {
      if bs[0].start <= now {
        var rest := bs[1..];
        assert ServerItemService.SortedByStart(rest);
        NextAgreesWithServerScan(rest, now);
        ScanNextPastStartedHead(bs, now);
      } else {
        UpcomingHeadOfSortedListIsEarliest(bs, now);
      }
    }
  }

  /** Past a head that has started, the server's scan finds the same next booking in the tail. */
  lemma ScanNextPastStartedHead(bs: seq<Booking>, now: Time)
    requires bs != [] && bs[0].start <= now
    ensures ServerItemService.LastAndNext(bs, now).1 == ServerItemService.LastAndNext(bs[1..], now).1
  {
    assert ServerItemService.FirstStartAfter(bs, now) == 1 + ServerItemService.FirstStartAfter(bs[1..], now);
  }

  /** On a list sorted by start, an upcoming head is the earliest upcoming booking. */
  lemma UpcomingHeadOfSortedListIsEarliest(bs: seq<Booking>, now: Time)
    requires ServerItemService.SortedByStart(bs)
    requires bs != [] && bs[0].start > now
    ensures EarliestUpcoming(bs, now) == Some(bs[0])
  {
    var rest := EarliestUpcoming(bs[1..], now);
    if rest.Some? {
      var k :| 0 <= k < |bs[1..]| && bs[1..][k] == rest.value;
      assert bs[k + 1] == rest.value;
    }
  }

  /** The two variants disagree on `last` when the only booking is under way. */
  lemma LastDiffersFromServerScan()
    ensures var item := Item(Some(1), None, None, Some(true), 2, None);
            var ongoing := Booking(Some(1), 0, 10, item, 3, APPROVED);
            && ServerItemService.LastAndNext([ongoing], 5).0 == Some(ongoing)
            && LatestFinished([ongoing], 5).None?
  {
  }

  /**
   * The comment rule of the validator (an approved booking that has ended)
   * is stricter than the server's (any booking that has ended).
   */
  lemma CommentRuleIsStricterThanServer(db: Db, text: Option<string>, itemId: int, userId: int, now: Time)
    requires ValidateCommentInput(db, text, itemId, userId, now).Pass?
    ensures ServerItemService.ExistsPastBookingForUser(db, itemId, userId, now)
  {
    var k :| k in db.bookings && db.bookings[k].item.id == Some(itemId) && db.bookings[k].bookerId == userId
             && db.bookings[k].status == APPROVED && db.bookings[k].end < now;
  }
}

=== FILE: server_booking_service.dfy ===
/**
 * The server's `BookingServiceImpl`: creation with the availability check
 * only, the owner's approve/reject decision, the booker-or-owner read rule,
 * and the two listings filtered by state at an explicit `now`.
 */
module ServerBookingService {
  import opened Common
  import opened Domain
  import opened Temporal
  import opened Mappers

  /** `checkItemAvailable`: refuses an unavailable item; a null flag throws on unboxing. */
  function CheckItemAvailable(b: Booking): (o: Outcome)
    ensures o.Pass? <==> b.item.available == Some(true)
    ensures b.item.available == Some(false) ==> o == Fail(ConditionsNotMet)
    ensures b.item.available == None ==> o == Fail(NullValue)
  {
    match b.item.available
    case None => Fail(NullValue)
    case Some(available) => if !available then Fail(ConditionsNotMet) else Pass
  }

  /** `bookingRepository.save` of a new booking: the identity column assigns an unused key. */
  function SaveNewBooking(db: Db, b: Booking): (r: (Db, Booking))
    ensures r.1.id.Some? && r.1.id.value !in db.bookings
    ensures r.1 == b.(id := r.1.id)
    ensures r.0 == db.(bookings := db.bookings[r.1.id.value := r.1])
  {
    var key := NextKey(db.bookings);
    var saved := b.(id := Some(key));
    (db.(bookings := db.bookings[key := saved]), saved)
  }

  /**
   * `createBooking`: the item, then the booker must exist, then the item must
   * be available. Neither the time window nor the booker's relation to the
   * item is checked here.
   */
  function CreateBooking(db: Db, dto: CreateBookingDto, userId: int): (r: Result<(Db, Booking)>)
    ensures dto.itemId !in db.items ==> r == Err(NotFound)
    ensures dto.itemId in db.items && userId !in db.users ==> r == Err(NotFound)
    ensures dto.itemId in db.items && userId in db.users && db.items[dto.itemId].available == Some(false)
            ==> r == Err(ConditionsNotMet)
    ensures r.Ok? <==> dto.itemId in db.items && userId in db.users && db.items[dto.itemId].available == Some(true)
    ensures r.Ok? ==>
              var (db', b) := r.value;
              && b.status == BookingStatus.WAITING
              && b.start == dto.start && b.end == dto.end
              && b.item == db.items[dto.itemId] && b.bookerId == userId
              && b.id.Some? && b.id.value !in db.bookings
              && db' == db.(bookings := db.bookings[b.id.value := b])
  {
    if dto.itemId !in db.items then Err(NotFound)
    else if userId !in db.users then Err(NotFound)
    else
      var booking := ToBooking(dto, db.items[dto.itemId], userId);
      :- CheckItemAvailable(booking);
      Ok(SaveNewBooking(db, booking))
  }

  /**
   * `approve`: only the item's owner may decide, and the decision is taken
   * whatever the booking's current status.
   */
  function Approve(db: Db, userId: int, bookingId: int, approved: bool): (r: Result<(Db, Booking)>)
    ensures bookingId !in db.bookings ==> r == Err(NotFound)
    ensures bookingId in db.bookings && !IsItemOwner(db.bookings[bookingId], userId) ==> r == Err(ConditionsNotMet)
    ensures r.Ok? <==> bookingId in db.bookings && IsItemOwner(db.bookings[bookingId], userId)
    ensures r.Ok? ==>
              var (db', b) := r.value;
              && b.status != BookingStatus.WAITING
              && (b.status == APPROVED <==> approved)
              && b == WithStatus(db.bookings[bookingId], b.status)
              && db' == db.(bookings := db.bookings[bookingId := b])
  {
    if bookingId !in db.bookings then Err(NotFound)
    else
      var booking := db.bookings[bookingId];
      if booking.item.ownerId != userId then Err(ConditionsNotMet)
      else
        var decided := WithStatus(booking, StatusByApprove(approved));
        Ok((db.(bookings := db.bookings[bookingId := decided]), decided))
  }

  /** `findBooking`: the booking, then the caller must exist, and the caller must be its booker or owner. */
  function FindBooking(db: Db, bookingId: int, userId: int): (r: Result<Booking>)
    ensures bookingId !in db.bookings ==> r == Err(NotFound)
    ensures bookingId in db.bookings && userId !in db.users ==> r == Err(NotFound)
    ensures r.Ok? <==> bookingId in db.bookings && userId in db.users && IsBookerOrOwner(db.bookings[bookingId], userId)
    ensures r.Err? && bookingId in db.bookings && userId in db.users ==> r.error == ConditionsNotMet
    ensures r.Ok? ==> r.value == db.bookings[bookingId]
  {
    if bookingId !in db.bookings then Err(NotFound)
    else
      var booking := db.bookings[bookingId];
      if userId !in db.users then Err(NotFound)
      else if !(booking.bookerId == userId || booking.item.ownerId == userId) then Err(ConditionsNotMet)
      else Ok(booking)
  }

  /** `getBookingsByUser`: the caller's own bookings in `state`; an unknown caller simply has none. */
  function GetBookingsByUser(db: Db, userId: int, state: States, now: Time): (r: set<Booking>)
    ensures forall k :: k in db.bookings && db.bookings[k].bookerId == userId && MatchesState(state, db.bookings[k], now)
                        ==> db.bookings[k] in r
    ensures forall b :: b in r ==> b.bookerId == userId && MatchesState(state, b, now)
    ensures forall b :: b in r ==> exists k :: k in db.bookings && db.bookings[k] == b
  {
    set k | k in db.bookings && db.bookings[k].bookerId == userId && MatchesState(state, db.bookings[k], now)
      :: db.bookings[k]
  }

  /** `getBookingsByOwner`: the caller must exist; then the bookings of the caller's items in `state`. */
  function GetBookingsByOwner(db: Db, userId: int, state: States, now: Time): (r: Result<set<Booking>>)
    ensures r.Err? <==> userId !in db.users
    ensures r.Err? ==> r.error == NotFound
    ensures r.Ok? ==>
              forall k :: k in db.bookings && IsItemOwner(db.bookings[k], userId) && MatchesState(state, db.bookings[k], now)
                          ==> db.bookings[k] in r.value
    ensures r.Ok? ==> forall b :: b in r.value ==> IsItemOwner(b, userId) && MatchesState(state, b, now)
    ensures r.Ok? ==> forall b :: b in r.value ==> exists k :: k in db.bookings && db.bookings[k] == b
  {
    if userId !in db.users then Err(NotFound)
    else
      Ok(set k | k in db.bookings && IsItemOwner(db.bookings[k], userId) && MatchesState(state, db.bookings[k], now)
           :: db.bookings[k])
  }

  /** Every stored booking has a window that is not inverted. */
  ghost predicate ProperWindows(db: Db) {
    forall k :: k in db.bookings ==> db.bookings[k].start <= db.bookings[k].end
  }

  /**
   * With proper windows, a booker's PAST, CURRENT and FUTURE listings never
   * share a booking, every listing is part of ALL, and whatever ALL holds
   * outside WAITING and REJECTED is approved.
   */
  lemma BookerListingsPartition(db: Db, userId: int, now: Time)
    requires ProperWindows(db)
    ensures GetBookingsByUser(db, userId, PAST, now) !! GetBookingsByUser(db, userId, CURRENT, now)
    ensures GetBookingsByUser(db, userId, PAST, now) !! GetBookingsByUser(db, userId, FUTURE, now)
    ensures GetBookingsByUser(db, userId, CURRENT, now) !! GetBookingsByUser(db, userId, FUTURE, now)
    ensures forall s: States :: GetBookingsByUser(db, userId, s, now) <= GetBookingsByUser(db, userId, ALL, now)
    ensures forall b :: b in GetBookingsByUser(db, userId, ALL, now)
                        - GetBookingsByUser(db, userId, States.WAITING, now)
                        - GetBookingsByUser(db, userId, States.REJECTED, now)
                        ==> b.status == APPROVED
  {
    forall b | b in GetBookingsByUser(db, userId, ALL, now)
      ensures !(MatchesState(PAST, b, now) && MatchesState(CURRENT, b, now))
      ensures !(MatchesState(PAST, b, now) && MatchesState(FUTURE, b, now))
      ensures !(MatchesState(CURRENT, b, now) && MatchesState(FUTURE, b, now))
    {
      var k :| k in db.bookings && db.bookings[k] == b;
      PastCurrentFutureDisjoint(b, now);
    }
  }

  /** Deciding twice the same way changes nothing the second time. */
  lemma ApproveIsIdempotent(db: Db, userId: int, bookingId: int, approved: bool)
    requires Approve(db, userId, bookingId, approved).Ok?
    ensures var (db', b) := Approve(db, userId, bookingId, approved).value;
            Approve(db', userId, bookingId, approved) == Ok((db', b))
  {
    var (db', b) := Approve(db, userId, bookingId, approved).value;
    assert db'.bookings[bookingId := b] == db'.bookings;
  }

  /** The owner may reverse a decision: an approved booking can still be rejected, and the other way round. */
  lemma DecisionCanBeReversed(db: Db, userId: int, bookingId: int, approved: bool)
    requires Approve(db, userId, bookingId, approved).Ok?
    ensures var (db', _) := Approve(db, userId, bookingId, approved).value;
            var again := Approve(db', userId, bookingId, !approved);
            again.Ok? && again.value.1.status == StatusByApprove(!approved)
  {
  }

  /** A booking just created is visible to its booker, and to its item's owner. */
  lemma CreatedBookingIsFound(db: Db, dto: CreateBookingDto, userId: int)
    requires CreateBooking(db, dto, userId).Ok?
    ensures var (db', b) := CreateBooking(db, dto, userId).value;
            && FindBooking(db', b.id.value, userId) == Ok(b)
            && (b.item.ownerId in db.users ==> FindBooking(db', b.id.value, b.item.ownerId) == Ok(b))
  {
  }

  /** A booking just created is listed among its booker's WAITING bookings, at any time. */
  lemma CreatedBookingIsWaiting(db: Db, dto: CreateBookingDto, userId: int, now: Time)
    requires CreateBooking(db, dto, userId).Ok?
    ensures var (db', b) := CreateBooking(db, dto, userId).value;
            b in GetBookingsByUser(db', userId, States.WAITING, now)
  {
    var (db', b) := CreateBooking(db, dto, userId).value;
    assert db'.bookings[b.id.value] == b;
  }

  /**
   * Creation does not look at time: a window that is inverted and lies
   * wholly in the past is accepted, and so is a booking of one's own item.
   */
  lemma CreateAcceptsInvertedWindowOfOwnItem()
    ensures var item := Item(Some(1), Some("drill"), None, Some(true), 7, None);
            var db := Db(map[7 := User(Some(7), None, None)], map[1 := item], map[], {}, map[]);
            CreateBooking(db, CreateBookingDto(1, 20, 10), 7).Ok?
  {
  }
}

=== FILE: server_item_service.dfy ===
/**
 * The server's `ItemServiceImpl`: creation, the null-preserving update,
 * the availability-filtered search, commenting after a finished booking,
 * and the scan that picks an item's last and next bookings.
 */
module ServerItemService {
  import opened Common
  import opened Domain
  import opened Text
  import opened Mappers

  /** The body of a comment request. */
  datatype CreateCommentDto = CreateCommentDto(text: Option<string>)

  /** `itemRepository.save` of a new item: the identity column assigns an unused key. */
  function SaveNewItem(db: Db, item: Item): (r: (Db, Item))
    ensures r.1.id.Some? && r.1.id.value !in db.items
    ensures r.1 == item.(id := r.1.id)
    ensures r.0 == db.(items := db.items[r.1.id.value := r.1])
  {
    var key := NextKey(db.items);
    var saved := item.(id := Some(key));
    (db.(items := db.items[key := saved]), saved)
  }

  /** `create`: the owner must exist, and so must the request when one is named. */
  function Create(db: Db, dto: RequestItemDto, userId: int): (r: Result<(Db, Item)>)
    ensures userId !in db.users ==> r == Err(NotFound)
    ensures r.Ok? <==> userId in db.users && (dto.requestId.Some? ==> dto.requestId.value in db.requests)
    ensures r.Err? ==> r.error == NotFound
    ensures r.Ok? ==>
              var (db', item) := r.value;
              && item.ownerId == userId && item.requestId == dto.requestId
              && item.name == dto.name && item.description == dto.description && item.available == dto.available
              && item.id.Some? && item.id.value !in db.items
              && db' == db.(items := db.items[item.id.value := item])
  {
    if userId !in db.users then Err(NotFound)
    else if dto.requestId.Some? && dto.requestId.value !in db.requests then Err(NotFound)
    else Ok(SaveNewItem(db, ToItem(dto, None, userId, dto.requestId)))
  }

  /**
   * `update`: the item, then the caller must exist, and the caller must own
   * the item. Null fields of the body keep the stored values; the request
   * link is never changed.
   */
  function Update(db: Db, itemId: int, dto: RequestItemDto, userId: int): (r: Result<(Db, Item)>)
    ensures itemId !in db.items ==> r == Err(NotFound)
    ensures itemId in db.items && userId !in db.users ==> r == Err(NotFound)
    ensures r.Ok? <==> itemId in db.items && userId in db.users && db.items[itemId].ownerId == userId
    ensures r.Err? && itemId in db.items && userId in db.users ==> r.error == ConditionsNotMet
    ensures r.Ok? ==>
              var (db', item) := r.value;
              var prev := db.items[itemId];
              && item.id == Some(itemId) && item.ownerId == prev.ownerId && item.requestId == prev.requestId
              && (dto.name.Some? ==> item.name == dto.name) && (dto.name.None? ==> item.name == prev.name)
              && (dto.description.Some? ==> item.description == dto.description)
              && (dto.description.None? ==> item.description == prev.description)
              && (dto.available.Some? ==> item.available == dto.available)
              && (dto.available.None? ==> item.available == prev.available)
              && db' == db.(items := db.items[itemId := item])
  {
    if itemId !in db.items then Err(NotFound)
    else if userId !in db.users then Err(NotFound)
    else
      var prev := db.items[itemId];
      if prev.ownerId != userId then Err(ConditionsNotMet)
      else
        var incoming := ToItem(dto, Some(itemId), userId, prev.requestId);
        var merged := incoming.(
          name := if incoming.name.None? then prev.name else incoming.name,
          description := if incoming.description.None? then prev.description else incoming.description,
          available := if incoming.available.None? then prev.available else incoming.available);
        Ok((db.(items := db.items[itemId := merged]), merged))
  }

  /** An update whose body holds only nulls leaves the store as it was, when the stored item carries its own key. */
  lemma EmptyUpdateChangesNothing(db: Db, itemId: int, requestId: Option<int>, userId: int)
    requires itemId in db.items && db.items[itemId].id == Some(itemId)
    requires Update(db, itemId, RequestItemDto(None, None, None, requestId), userId).Ok?
    ensures Update(db, itemId, RequestItemDto(None, None, None, requestId), userId) == Ok((db, db.items[itemId]))
  {
    assert db.items[itemId := db.items[itemId]] == db.items;
  }

  /** Repeating an update with the same body changes nothing more. */
  lemma UpdateIsIdempotent(db: Db, itemId: int, dto: RequestItemDto, userId: int)
    requires Update(db, itemId, dto, userId).Ok?
    ensures var (db', item) := Update(db, itemId, dto, userId).value;
            Update(db', itemId, dto, userId) == Ok((db', item))
  {
    var (db', item) := Update(db, itemId, dto, userId).value;
    assert db'.items[itemId := item] == db'.items;
  }

  /** The creator of an item may update it straight away. */
  lemma CreatorMayUpdate(db: Db, dto: RequestItemDto, userId: int, patch: RequestItemDto)
    requires Create(db, dto, userId).Ok?
    ensures var (db', item) := Create(db, dto, userId).value;
            Update(db', item.id.value, patch, userId).Ok?
  {
  }

  /** A nullable column matches the search text under SQL `UPPER(..) LIKE UPPER('%' || text || '%')`; NULL never matches. */
  predicate ColumnLike(column: Option<string>, text: string) {
    column.Some? && LikeIgnoreCase(column.value, text)
  }

  /** `itemRepository.search`: name or description contains the text, ignoring case. */
  predicate MatchesSearch(item: Item, text: string) {
    ColumnLike(item.name, text) || ColumnLike(item.description, text)
  }

  /**
   * `findBySearch`: nothing for the empty text; otherwise the matches of the
   * repository search that are available. A match whose `available` is null
   * makes the stream filter throw.
   */
  function FindBySearch(db: Db, text: string): (r: Result<set<Item>>)
    ensures text == [] ==> r == Ok({})
    ensures r.Err? <==>
              text != [] && exists k :: k in db.items && MatchesSearch(db.items[k], text) && db.items[k].available.None?
    ensures r.Err? ==> r.error == NullValue
    ensures r.Ok? ==> forall item :: item in r.value ==> item.available == Some(true) && MatchesSearch(item, text)
    ensures r.Ok? && text != [] ==>
              forall k :: k in db.items && MatchesSearch(db.items[k], text) && db.items[k].available == Some(true)
                          ==> db.items[k] in r.value
    ensures r.Ok? ==> forall item :: item in r.value ==> exists k :: k in db.items && db.items[k] == item
  {
    if text == [] then Ok({})
    else
      var matches := set k | k in db.items && MatchesSearch(db.items[k], text);
      if exists k :: k in matches && db.items[k].available.None? then Err(NullValue)
      else Ok(set k | k in matches && db.items[k].available.value :: db.items[k])
  }

  /** The search text is not trimmed: a single space finds every item whose name holds a space. */
  lemma SearchDoesNotTrim()
    ensures var item := Item(Some(1), Some("power drill"), None, Some(true), 2, None);
            var db := Db(map[], map[1 := item], map[], {}, map[]);
            FindBySearch(db, " ") == Ok({item})
  {
    var item := Item(Some(1), Some("power drill"), None, Some(true), 2, None);
    var db := Db(map[], map[1 := item], map[], {}, map[]);
    assert OccursAt(UpperCase("power drill"), UpperCase(" "), 5);
    assert MatchesSearch(item, " ");
    var matches := set k | k in db.items && MatchesSearch(db.items[k], " ");
    assert matches == {1};
    assert (set k | k in matches && db.items[k].available.value :: db.items[k]) == {item};
  }

  /**
   * `existsPastBookingForUser`: some booking of the item by the user has
   * ended, whatever its status.
   */
  predicate ExistsPastBookingForUser(db: Db, itemId: int, userId: int, now: Time) {
    exists k :: k in db.bookings && db.bookings[k].item.id == Some(itemId) && db.bookings[k].bookerId == userId
                && db.bookings[k].end < now
  }

  /** `postComment`: the item, then the author must exist, and the author must have a finished booking of the item. */
  function PostComment(db: Db, dto: CreateCommentDto, itemId: int, userId: int, now: Time): (r: Result<(Db, Comment)>)
    ensures itemId !in db.items ==> r == Err(NotFound)
    ensures itemId in db.items && userId !in db.users ==> r == Err(NotFound)
    ensures r.Ok? <==> itemId in db.items && userId in db.users && ExistsPastBookingForUser(db, itemId, userId, now)
    ensures r.Err? && itemId in db.items && userId in db.users ==> r.error == ConditionsNotMet
    ensures r.Ok? ==>
              var (db', c) := r.value;
              && c.text == dto.text && c.itemId == itemId && c.authorId == userId && c.created == now
              && c.id.Some? && c.id.value !in db.comments
              && db' == db.(comments := db.comments[c.id.value := c])
  {
    if itemId !in db.items then Err(NotFound)
    else if userId !in db.users then Err(NotFound)
    else if !ExistsPastBookingForUser(db, itemId, userId, now) then Err(ConditionsNotMet)
    else
      var key := NextKey(db.comments);
      var comment := Comment(Some(key), dto.text, itemId, userId, now);
      Ok((db.(comments := db.comments[key := comment]), comment))
  }

  /** A rejected booking that has ended is enough to comment. */
  lemma RejectedPastBookingAllowsComment()
    ensures var item := Item(Some(1), Some("ladder"), None, Some(true), 2, None);
            var booking := Booking(Some(5), 0, 10, item, 3, BookingStatus.REJECTED);
            var db := Db(map[2 := User(Some(2), None, None), 3 := User(Some(3), None, None)],
                         map[1 := item], map[5 := booking], {}, map[]);
            PostComment(db, CreateCommentDto(Some("fine")), 1, 3, 20).Ok?
  {
    var item := Item(Some(1), Some("ladder"), None, Some(true), 2, None);
    var booking := Booking(Some(5), 0, 10, item, 3, BookingStatus.REJECTED);
    var db := Db(map[2 := User(Some(2), None, None), 3 := User(Some(3), None, None)],
                 map[1 := item], map[5 := booking], {}, map[]);
    assert db.bookings[5] == booking;
  }

  /** `findAllByItem` yields bookings ordered by start. */
  predicate SortedByStart(bs: seq<Booking>) {
    forall i, j :: 0 <= i < j < |bs| ==> bs[i].start <= bs[j].start
  }

  /** The position where the scan stops: the first booking that starts after `now`, or the end of the list. */
  function FirstStartAfter(bs: seq<Booking>, now: Time): (i: nat)
    ensures i <= |bs|
    ensures forall j :: 0 <= j < i ==> bs[j].start <= now
    ensures i < |bs| ==> bs[i].start > now
  {
    if bs == [] || bs[0].start > now then 0 else 1 + FirstStartAfter(bs[1..], now)
  }

  /**
   * The last and next bookings as the scan defines them: next is the first
   * booking that starts after `now`; last is the booking just before it, or
   * the final booking when none starts after `now`.
   */
  function LastAndNext(bs: seq<Booking>, now: Time): (r: (Option<Booking>, Option<Booking>))
    ensures r.1.None? <==> forall j :: 0 <= j < |bs| ==> bs[j].start <= now
    ensures r.1.Some? ==> r.1.value.start > now && r.1.value in bs
    ensures r.0.None? <==> bs == [] || bs[0].start > now
    ensures r.0.Some? ==> r.0.value.start <= now && r.0.value in bs
    ensures r.0.Some? && r.1.Some? ==> exists i :: 1 <= i < |bs| && bs[i - 1] == r.0.value && bs[i] == r.1.value
    ensures r.0.Some? && r.1.None? ==> r.0.value == bs[|bs| - 1]
    ensures r.1.Some? ==>
              exists i :: && 0 <= i < |bs| && bs[i] == r.1.value
                          && (forall j :: 0 <= j < i ==> bs[j].start <= now)
                          && (r.0.Some? ==> 1 <= i && bs[i - 1] == r.0.value)
  {
    var i := FirstStartAfter(bs, now);
    (if i == 0 then None else Some(bs[i - 1]), if i == |bs| then None else Some(bs[i]))
  }

  /** `getLastAndNextBooking`: the loop over the item's approved bookings, stopping at the first future one. */
  method GetLastAndNextBooking(bookings: seq<Booking>, now: Time) returns (last: Option<Booking>, next: Option<Booking>)
    ensures (last, next) == LastAndNext(bookings, now)
  {
    last := None;
    next := None;
    var i := 0;
    while i < |bookings|
      invariant 0 <= i <= |bookings|
      invariant next.None?
      invariant forall j :: 0 <= j < i ==> bookings[j].start <= now
      invariant last == if i == 0 then None else Some(bookings[i - 1])
    {
      if bookings[i].start > now {
        next := Some(bookings[i]);
        break;
      }
      last := Some(bookings[i]);
      i := i + 1;
    }
    FirstStartAfterIsUnique(bookings, now, i);
  }

  /** The scan position is the only index with its two defining properties. */
  lemma FirstStartAfterIsUnique(bs: seq<Booking>, now: Time, i: nat)
    requires i <= |bs|
    requires forall j :: 0 <= j < i ==> bs[j].start <= now
    requires i < |bs| ==> bs[i].start > now
    ensures i == FirstStartAfter(bs, now)
  {
  }

  /**
   * On the query's sorted list, last is a booking with the latest start not
   * after `now` (it may still be ongoing) and next one with the earliest
   * start after `now`.
   */
  lemma LastAndNextOnSortedList(bs: seq<Booking>, now: Time)
    requires SortedByStart(bs)
    ensures var (last, next) := LastAndNext(bs, now);
            && (last.Some? ==> forall j :: 0 <= j < |bs| && bs[j].start <= now ==> bs[j].start <= last.value.start)
            && (next.Some? ==> forall j :: 0 <= j < |bs| && bs[j].start > now ==> next.value.start <= bs[j].start)
  {
    var i := FirstStartAfter(bs, now);
    forall j | 0 <= j < |bs| && bs[j].start <= now && i > 0
      ensures bs[j].start <= bs[i - 1].start
    {
    }
    forall j | 0 <= j < |bs| && bs[j].start > now && i < |bs|
      ensures bs[i].start <= bs[j].start
    {
    }
  }

  /** The rows of `findAllByItem(item)`: the item's approved bookings, ordered by start. */
  ghost predicate FindAllByItemRows(db: Db, itemId: int, bs: seq<Booking>) {
    ApprovedBookingsOf(db, itemId, bs) && SortedByStart(bs)
  }

  /**
   * Over the rows of `findAllByItem`, the scan reports only stored approved
   * bookings of the item: next is one with the earliest start after `now`
   * among all of them, and is absent exactly when none starts after `now`;
   * last is one with the latest start not after `now`.
   */
  lemma ScanOfQueryPicksApprovedBookingsOfItem(db: Db, itemId: int, bs: seq<Booking>, now: Time)
    requires FindAllByItemRows(db, itemId, bs)
    ensures var (last, next) := LastAndNext(bs, now);
            && (last.Some? ==> StoredApprovedBookingOf(db, itemId, last.value))
            && (next.Some? ==> StoredApprovedBookingOf(db, itemId, next.value))
            && (next.None? <==> forall b :: StoredApprovedBookingOf(db, itemId, b) ==> b.start <= now)
            && (next.Some? ==>
                  forall b :: StoredApprovedBookingOf(db, itemId, b) && b.start > now ==> next.value.start <= b.start)
            && (last.Some? ==>
                  forall b :: StoredApprovedBookingOf(db, itemId, b) && b.start <= now ==> b.start <= last.value.start)
  {
    var (last, next) := LastAndNext(bs, now);
    LastAndNextOnSortedList(bs, now);
    if last.Some? {
      var i :| 0 <= i < |bs| && bs[i] == last.value;
    }
    if next.Some? {
      var i :| 0 <= i < |bs| && bs[i] == next.value;
    }
    forall b | StoredApprovedBookingOf(db, itemId, b)
      ensures exists j :: 0 <= j < |bs| && bs[j] == b
    {
      assert b in bs;
    }
  }

  /** An ongoing booking is reported as the last one. */
  lemma OngoingBookingIsLast()
    ensures var item := Item(Some(1), None, None, Some(true), 2, None);
            var ongoing := Booking(Some(1), 0, 10, item, 3, APPROVED);
            LastAndNext([ongoing], 5) == (Some(ongoing), None)
  {
  }
}

=== FILE: temporal.dfy ===
/**
 * Time-dependent rules on bookings: the six listing buckets relative to an
 * explicit `now`, and the window-overlap relation used to refuse a booking
 * that collides with an approved one.
 */
module Temporal {
  import opened Common
  import opened Domain

  /**
   * The filter a listing applies for `state`, evaluated at `now`.
   * Every comparison is strict, as `isBefore`/`isAfter` are.
   */
  predicate MatchesState(state: States, b: Booking, now: Time) {
    match state
    case ALL => true
    case CURRENT => b.status == APPROVED && b.start < now && b.end > now
    case FUTURE => b.status == APPROVED && b.start > now
    case PAST => b.status == APPROVED && b.end < now
    case WAITING => b.status == BookingStatus.WAITING
    case REJECTED => b.status == BookingStatus.REJECTED
  }

  /** CURRENT, PAST and FUTURE never share a booking whose window is not inverted. */
  lemma PastCurrentFutureDisjoint(b: Booking, now: Time)
    requires b.start <= b.end
    ensures !(MatchesState(PAST, b, now) && MatchesState(CURRENT, b, now))
    ensures !(MatchesState(PAST, b, now) && MatchesState(FUTURE, b, now))
    ensures !(MatchesState(CURRENT, b, now) && MatchesState(FUTURE, b, now))
  {
  }

  /** An inverted window (end before start) can be both PAST and FUTURE, so the hypothesis above is needed. */
  lemma InvertedWindowIsPastAndFuture()
    ensures var b := Booking(None, 10, 0, Item(None, None, None, None, 0, None), 0, APPROVED);
            MatchesState(PAST, b, 5) && MatchesState(FUTURE, b, 5)
  {
  }

  /**
   * An approved booking with a proper window falls in some time bucket
   * exactly when `now` is neither its start nor its end: the strict
   * comparisons leave the two boundary instants unclassified.
   */
  lemma TimeBucketsCoverAllButBoundaries(b: Booking, now: Time)
    requires b.status == APPROVED && b.start < b.end
    ensures (MatchesState(PAST, b, now) || MatchesState(CURRENT, b, now) || MatchesState(FUTURE, b, now))
            <==> now != b.start && now != b.end
  {
  }

  /** The status buckets: WAITING and REJECTED are decided by status alone and never meet a time bucket. */
  lemma StatusBucketsExcludeTimeBuckets(b: Booking, now: Time, s: States)
    requires s == CURRENT || s == PAST || s == FUTURE
    ensures MatchesState(States.WAITING, b, now) ==> !MatchesState(s, b, now)
    ensures MatchesState(States.REJECTED, b, now) ==> !MatchesState(s, b, now)
    ensures MatchesState(States.WAITING, b, now) <==> b.status == BookingStatus.WAITING
    ensures MatchesState(States.REJECTED, b, now) <==> b.status == BookingStatus.REJECTED
  {
  }

  /**
   * `isOverlapping(start1, end1, start2, end2)` of the default validator:
   * closed windows, so windows that only touch do conflict.
   */
  predicate Overlapping(s1: Time, e1: Time, s2: Time, e2: Time) {
    s1 <= e2 && e1 >= s2
  }

  /** `t` lies in the closed window from `s` to `e`. */
  predicate Within(t: Time, s: Time, e: Time) {
    s <= t <= e
  }

  /** Overlap does not depend on which window is the existing one. */
  lemma OverlappingSymmetric(s1: Time, e1: Time, s2: Time, e2: Time)
    ensures Overlapping(s1, e1, s2, e2) <==> Overlapping(s2, e2, s1, e1)
  {
  }

  /** For proper windows, overlap means sharing at least one instant, end points included. */
  lemma OverlappingIffSharedInstant(s1: Time, e1: Time, s2: Time, e2: Time)
    requires s1 <= e1 && s2 <= e2
    ensures Overlapping(s1, e1, s2, e2) <==> exists t :: Within(t, s1, e1) && Within(t, s2, e2)
  {
    if Overlapping(s1, e1, s2, e2) {
      var t := if s1 <= s2 then s2 else s1;
      assert Within(t, s1, e1) && Within(t, s2, e2);
    }
  }

  /** The half-open overlap `s1 < e2 && e1 > s2`, under which touching windows are compatible. */
  predicate HalfOpenOverlapping(s1: Time, e1: Time, s2: Time, e2: Time) {
    s1 < e2 && e1 > s2
  }

  /**
   * The validator's closed overlap is stricter than the half-open one: the
   * two differ exactly on windows that touch at one end.
   */
  lemma ClosedOverlapRefusesTouchingWindows(s1: Time, e1: Time, s2: Time, e2: Time)
    requires s1 <= e1 && s2 <= e2
    ensures HalfOpenOverlapping(s1, e1, s2, e2) ==> Overlapping(s1, e1, s2, e2)
    ensures Overlapping(s1, e1, s2, e2) && !HalfOpenOverlapping(s1, e1, s2, e2)
            <==> s1 == e2 || e1 == s2
  {
  }
}

=== FILE: text.dfy ===
/**
 * The string operations the item and user rules rely on: Java's
 * `String.trim`, blankness, case-insensitive comparison and substring
 * search. Case folding covers the ASCII letters only.
 */
module Text {

  /** `String.trim` removes every character whose code is at most U+0020. */
  predicate IsTrimmable(c: char) {
    c <= ' '
  }

  /** `text.trim().isEmpty()`: the string holds nothing but trimmable characters. */
  predicate IsBlank(s: string) {
    forall i :: 0 <= i < |s| ==> IsTrimmable(s[i])
  }

  function TrimStart(s: string): (r: string)
    ensures |r| <= |s| && r == s[|s| - |r|..]
    ensures forall i :: 0 <= i < |s| - |r| ==> IsTrimmable(s[i])
    ensures r == [] || !IsTrimmable(r[0])
  {
    if s == [] || !IsTrimmable(s[0]) then s else TrimStart(s[1..])
  }

  function TrimEnd(s: string): (r: string)
    ensures |r| <= |s| && r == s[..|r|]
    ensures forall i :: |r| <= i < |s| ==> IsTrimmable(s[i])
    ensures r == [] || !IsTrimmable(r[|r| - 1])
  {
    if s == [] || !IsTrimmable(s[|s| - 1]) then s else TrimEnd(s[..|s| - 1])
  }

  /** Java's `String.trim`: drops trimmable characters from both ends. */
  function Trim(s: string): (r: string)
    ensures |r| <= |s|
    ensures r == [] || (!IsTrimmable(r[0]) && !IsTrimmable(r[|r| - 1]))
    ensures r == [] <==> IsBlank(s)
  {
    var t := TrimStart(s);
    assert t == [] ==> IsBlank(s);
    TrimEnd(t)
  }

  /** `s[i..j]` is what is left of `s` once a trimmable prefix and a trimmable suffix are cut off. */
  predicate IsInfixAfterCutting(s: string, i: int, j: int)
  {
    && 0 <= i <= j <= |s|
    && (forall k :: 0 <= k < i ==> IsTrimmable(s[k]))
    && (forall k :: j <= k < |s| ==> IsTrimmable(s[k]))
  }

  /** `trim` keeps an infix of its input: only trimmable characters at either end are cut off. */
  lemma TrimIsInfix(s: string)
    ensures exists i, j :: IsInfixAfterCutting(s, i, j) && Trim(s) == s[i..j]
  {
    var i, j := TrimCuts(s);
  }

  /** Where `trim` cuts: after the trimmable prefix that `TrimStart` drops, and before the suffix `TrimEnd` drops. */
  lemma TrimCuts(s: string) returns (i: int, j: int)
    ensures IsInfixAfterCutting(s, i, j) && Trim(s) == s[i..j]
  {
    var t := TrimStart(s);
    i := |s| - |t|;
    var r := TrimEnd(t);
    j := i + |r|;
    assert r == s[i..j] by {
      assert t == s[i..];
    }
    TrimEndCutIsTrimmableInWhole(s, i, j);
  }

  /** The tail `TrimEnd` drops from a suffix `s[i..]` is a trimmable tail of `s` itself. */
  lemma TrimEndCutIsTrimmableInWhole(s: string, i: int, j: int)
    requires 0 <= i <= |s| && j == i + |TrimEnd(s[i..])|
    ensures forall k :: j <= k < |s| ==> IsTrimmable(s[k])
  {
    var t := s[i..];
    forall k | j <= k < |s|
      ensures IsTrimmable(s[k])
    {
      assert s[k] == t[k - i];
    }
  }

  /** Below a first kept character at `i`, `TrimStart` cuts exactly the first `i` characters. */
  lemma {:induction false} TrimStartCutsPrefix(s: string, i: int)
    requires 0 <= i < |s| && !IsTrimmable(s[i])
    requires forall k :: 0 <= k < i ==> IsTrimmable(s[k])
    ensures TrimStart(s) == s[i..]
  {
    if i > 0 {
      assert IsTrimmable(s[0]);
      TrimStartCutsPrefix(s[1..], i - 1);
      assert s[1..][i - 1..] == s[i..];
    }
  }

  /** Above a last kept character at `j - 1`, `TrimEnd` cuts exactly the characters from `j` on. */
  lemma {:induction false} TrimEndCutsSuffix(s: string, j: int)
    requires 0 < j <= |s| && !IsTrimmable(s[j - 1])
    requires forall k :: j <= k < |s| ==> IsTrimmable(s[k])
    ensures TrimEnd(s) == s[..j]
    decreases |s| - j
  {
    if j < |s| {
      assert IsTrimmable(s[|s| - 1]);
      TrimEndCutsSuffix(s[..|s| - 1], j);
      assert s[..|s| - 1][..j] == s[..j];
    }
  }

  /** Cutting a trimmable prefix and suffix that meet leaves nothing, and so does `trim`. */
  lemma TrimOfMeetingCutsIsEmpty(s: string, i: int)
    requires IsInfixAfterCutting(s, i, i)
    ensures Trim(s) == []
  {
    assert IsBlank(s) by {
      forall k | 0 <= k < |s|
        ensures IsTrimmable(s[k])
      {
        if k < i {
        } else {
        }
      }
    }
  }

  /** `TrimEnd` of a suffix of `s` cuts the same trimmable tail as it would from `s`. */
  lemma TrimEndOfSuffixCuts(s: string, i: int, j: int)
    requires 0 <= i < j <= |s| && !IsTrimmable(s[j - 1])
    requires forall k :: j <= k < |s| ==> IsTrimmable(s[k])
    ensures TrimEnd(s[i..]) == s[i..j]
  {
    var t := s[i..];
    forall k | j - i <= k < |t|
      ensures IsTrimmable(t[k])
    {
      assert t[k] == s[k + i];
    }
    TrimEndCutsSuffix(t, j - i);
    assert t[..j - i] == s[i..j];
  }

  /** Cutting down to kept characters at both ends leaves what `trim` leaves. */
  lemma TrimOfKeptEndsIsInfix(s: string, i: int, j: int)
    requires IsInfixAfterCutting(s, i, j) && i < j
    requires !IsTrimmable(s[i]) && !IsTrimmable(s[j - 1])
    ensures Trim(s) == s[i..j]
  {
    TrimStartCutsPrefix(s, i);
    TrimEndOfSuffixCuts(s, i, j);
  }

  /**
   * The infix `trim` keeps is the only one that has no trimmable character
   * at either end (or is empty): cutting less, or more, gives another string.
   */
  lemma TrimIsTheKeptInfix(s: string, i: int, j: int)
    requires IsInfixAfterCutting(s, i, j)
    requires i == j || (!IsTrimmable(s[i]) && !IsTrimmable(s[j - 1]))
    ensures Trim(s) == s[i..j]
  {
    if i == j {
      TrimOfMeetingCutsIsEmpty(s, i);
    } else {
      TrimOfKeptEndsIsInfix(s, i, j);
    }
  }

  /** Trimming twice is the same as trimming once. */
  lemma TrimIdempotent(s: string)
    ensures Trim(Trim(s)) == Trim(s)
  {
    var r := Trim(s);
    if r != [] {
      assert TrimStart(r) == r;
      assert TrimEnd(r) == r;
    }
  }

  /** `Character.toLowerCase` on the ASCII letters. */
  function Lower(c: char): char {
    if 'A' <= c <= 'Z' then (c as int + 32) as char else c
  }

  /** `Character.toUpperCase` on the ASCII letters. */
  function Upper(c: char): char {
    if 'a' <= c <= 'z' then (c as int - 32) as char else c
  }

  /** `String.toLowerCase`. */
  function LowerCase(s: string): (r: string)
    ensures |r| == |s|
    ensures forall i :: 0 <= i < |s| ==> r[i] == Lower(s[i])
  {
    seq(|s|, i requires 0 <= i < |s| => Lower(s[i]))
  }

  /** `String.toUpperCase`. */
  function UpperCase(s: string): (r: string)
    ensures |r| == |s|
    ensures forall i :: 0 <= i < |s| ==> r[i] == Upper(s[i])
  {
    seq(|s|, i requires 0 <= i < |s| => Upper(s[i]))
  }

  /** Two characters agree after lower-casing exactly when they agree after upper-casing. */
  lemma LowerUpperAgree(a: char, b: char)
    ensures Lower(a) == Lower(b) <==> Upper(a) == Upper(b)
  {
  }

  /** `String.equalsIgnoreCase`. */
  predicate EqualsIgnoreCase(a: string, b: string) {
    |a| == |b| && forall i :: 0 <= i < |a| ==> Lower(a[i]) == Lower(b[i])
  }

  /** Case-insensitive equality is equality of the lower-cased strings, hence symmetric and reflexive. */
  lemma EqualsIgnoreCaseIsLowerEquality(a: string, b: string)
    ensures EqualsIgnoreCase(a, b) <==> LowerCase(a) == LowerCase(b)
    ensures EqualsIgnoreCase(a, b) <==> EqualsIgnoreCase(b, a)
    ensures EqualsIgnoreCase(a, a)
  {
    if LowerCase(a) == LowerCase(b) {
      forall i | 0 <= i < |a|
        ensures Lower(a[i]) == Lower(b[i])
      {
        assert LowerCase(a)[i] == LowerCase(b)[i];
      }
    }
  }

  /** `t` occurs in `s` starting at index `i`. */
  predicate OccursAt(s: string, t: string, i: int) {
    0 <= i && i + |t| <= |s| && s[i..i + |t|] == t
  }

  /** `String.contains`. */
  predicate Contains(s: string, t: string) {
    exists i :: 0 <= i <= |s| && OccursAt(s, t, i)
  }

  /** The empty string is contained in every string, and every string in itself. */
  lemma ContainsTrivialCases(s: string)
    ensures Contains(s, [])
    ensures Contains(s, s)
  {
    assert OccursAt(s, [], 0);
    assert OccursAt(s, s, 0);
  }

  /** `s.toLowerCase().contains(t.toLowerCase())`. */
  predicate ContainsIgnoreCase(s: string, t: string) {
    Contains(LowerCase(s), LowerCase(t))
  }

  /** SQL `UPPER(s) LIKE UPPER('%' || t || '%')` for a pattern without wildcards. */
  predicate LikeIgnoreCase(s: string, t: string) {
    Contains(UpperCase(s), UpperCase(t))
  }

  /** At one position, upper-case and lower-case matching agree. */
  lemma OccursAtIgnoringCase(s: string, t: string, i: int)
    requires 0 <= i && i + |t| <= |s|
    ensures OccursAt(UpperCase(s), UpperCase(t), i) <==> OccursAt(LowerCase(s), LowerCase(t), i)
  {
    forall k | 0 <= k < |t|
      ensures Upper(s[i + k]) == Upper(t[k]) <==> Lower(s[i + k]) == Lower(t[k])
    {
      LowerUpperAgree(s[i + k], t[k]);
    }
    assert OccursAt(UpperCase(s), UpperCase(t), i) <==>
      forall k :: 0 <= k < |t| ==> UpperCase(s)[i + k] == UpperCase(t)[k];
    assert OccursAt(LowerCase(s), LowerCase(t), i) <==>
      forall k :: 0 <= k < |t| ==> LowerCase(s)[i + k] == LowerCase(t)[k];
  }

  /** Upper-case containment (the SQL search) and lower-case containment (the Java search) agree. */
  lemma LikeIsContainsIgnoreCase(s: string, t: string)
    ensures LikeIgnoreCase(s, t) <==> ContainsIgnoreCase(s, t)
  {
    if LikeIgnoreCase(s, t) {
      var i :| 0 <= i <= |UpperCase(s)| && OccursAt(UpperCase(s), UpperCase(t), i);
      OccursAtIgnoringCase(s, t, i);
    }
    if ContainsIgnoreCase(s, t) {
      var i :| 0 <= i <= |LowerCase(s)| && OccursAt(LowerCase(s), LowerCase(t), i);
      OccursAtIgnoringCase(s, t, i);
    }
  }
}

=== FILE: user_repositories.dfy ===
/**
 * The monolith's in-memory user repository (`user/repository/UserRepositoryImpl`):
 * a map from id to user plus a counter that hands out ids to users saved
 * without one. Email lookups are case-insensitive and skip users whose
 * email is null.
 */
module InMemoryUserRepository {
  import opened Common
  import opened Domain
  import opened Text

  /** The repository's state: the map and the next id to hand out. */
  datatype UserStore = UserStore(storage: map<int, User>, nextId: int)

  /** Every stored key is below the counter, so the counter's value is free. */
  predicate Fresh(s: UserStore) {
    forall k :: k in s.storage ==> k < s.nextId
  }

  /** Every stored user carries the key it is stored under. */
  predicate WellKeyed(s: UserStore) {
    forall k :: k in s.storage ==> s.storage[k].id == Some(k)
  }

  /** A new repository: nothing stored, the counter at 1. */
  function Initial(): (s: UserStore)
    ensures s.storage == map[] && s.nextId == 1
    ensures Fresh(s) && WellKeyed(s)
  {
    UserStore(map[], 1)
  }

  /** `findById`: the stored user, or null. */
  function FindById(s: UserStore, id: int): (r: Option<User>)
    ensures r.Some? <==> id in s.storage
    ensures r.Some? ==> r.value == s.storage[id]
  {
    if id in s.storage then Some(s.storage[id]) else None
  }

  /**
   * `save`: a user without an id takes the counter's value and the counter
   * moves on; a user with an id overwrites that entry.
   */
  function Save(s: UserStore, u: User): (r: (UserStore, User))
    ensures r.1.name == u.name && r.1.email == u.email
    ensures u.id.Some? ==> r.1 == u && r.0.nextId == s.nextId
    ensures u.id.None? ==> r.1.id == Some(s.nextId) && r.0.nextId == s.nextId + 1
    ensures r.1.id.Some? && r.0.storage == s.storage[r.1.id.value := r.1]
  {
    match u.id
    case Some(k) => (s.(storage := s.storage[k := u]), u)
    case None =>
      var saved := u.(id := Some(s.nextId));
      (UserStore(s.storage[s.nextId := saved], s.nextId + 1), saved)
  }

  /** `delete`: removes the key if present; an absent key changes nothing. */
  function Delete(s: UserStore, id: int): (r: UserStore)
    ensures id !in r.storage && r.nextId == s.nextId
    ensures forall k :: k in s.storage && k != id ==> k in r.storage && r.storage[k] == s.storage[k]
    ensures forall k :: k in r.storage ==> k in s.storage
    ensures id !in s.storage ==> r == s
  {
    if id in s.storage then s.(storage := s.storage - {id}) else s
  }

  /** `existsById`: false for null, otherwise whether `findById` finds the user. */
  function ExistsById(s: UserStore, id: Option<int>): (r: bool)
    ensures id.None? ==> !r
    ensures id.Some? ==> (r <==> FindById(s, id.value).Some?)
  {
    id.Some? && id.value in s.storage
  }

  /** A stored user whose non-null email equals `email` ignoring case. */
  predicate HasEmail(u: User, email: string) {
    u.email.Some? && EqualsIgnoreCase(u.email.value, email)
  }

  /** `existsByEmail`: false for null; otherwise some stored user has that email, ignoring case. */
  predicate ExistsByEmail(s: UserStore, email: Option<string>) {
    email.Some? && exists k :: k in s.storage && HasEmail(s.storage[k], email.value)
  }

  /**
   * `findByEmail`: null for a null email, otherwise some stored user with
   * that email ignoring case, or null. The stream's encounter order is not
   * specified, so the model picks the match under the largest key.
   */
  function FindByEmail(s: UserStore, email: Option<string>): (r: Option<User>)
    ensures r.Some? <==> ExistsByEmail(s, email)
    ensures r.Some? ==> HasEmail(r.value, email.value)
    ensures r.Some? ==> exists k :: k in s.storage && s.storage[k] == r.value
  {
    match email
    case None => None
    case Some(e) =>
      var matches := map k | k in s.storage && HasEmail(s.storage[k], e) :: s.storage[k];
      assert forall k :: k in s.storage && HasEmail(s.storage[k], e) ==> k in matches;
      if matches == map[] then None
      else
        var k := MaxKey(matches);
        assert k in s.storage && s.storage[k] == matches[k];
        Some(matches[k])
  }

  /** Saving keeps every stored user under its own id. */
  lemma SaveKeepsUsersWellKeyed(s: UserStore, u: User)
    requires WellKeyed(s)
    ensures WellKeyed(Save(s, u).0)
  {
  }

  /**
   * While the counter is ahead of every key, a user saved without an id
   * gets a key nobody holds, and the counter stays ahead.
   */
  lemma GeneratedIdIsFresh(s: UserStore, u: User)
    requires Fresh(s) && u.id.None?
    ensures Save(s, u).1.id.value !in s.storage
    ensures Fresh(Save(s, u).0)
    ensures |Save(s, u).0.storage| == |s.storage| + 1
  {
  }

  /**
   * The counter ignores explicit ids: after a user is saved under id 1 in
   * a new repository, the next user saved without an id replaces it.
   */
  lemma ExplicitIdCanBeOverwrittenLater(a: User, b: User)
    requires a.id == Some(1) && b.id.None?
    ensures var (s1, _) := Save(Initial(), a);
            var (s2, saved) := Save(s1, b);
            && saved.id == Some(1)
            && s2.storage == map[1 := saved]
            && !Fresh(s1)
  {
  }

  /** A user just saved is found under its id, by id and by its email. */
  lemma SavedUserIsFound(s: UserStore, u: User)
    ensures var (s', saved) := Save(s, u);
            && FindById(s', saved.id.value) == Some(saved)
            && (u.email.Some? ==> ExistsByEmail(s', u.email))
  {
    var (s', saved) := Save(s, u);
    if u.email.Some? {
      Text.EqualsIgnoreCaseIsLowerEquality(u.email.value, u.email.value);
      assert saved.id.value in s'.storage && HasEmail(s'.storage[saved.id.value], u.email.value);
    }
  }

  /** An email is found whatever the case it is asked in. */
  lemma EmailLookupIgnoresCase(s: UserStore, e: string, e': string)
    requires EqualsIgnoreCase(e, e')
    ensures ExistsByEmail(s, Some(e)) <==> ExistsByEmail(s, Some(e'))
  {
    Text.EqualsIgnoreCaseIsLowerEquality(e, e');
    forall k | k in s.storage && s.storage[k].email.Some?
      ensures HasEmail(s.storage[k], e) <==> HasEmail(s.storage[k], e')
    {
      Text.EqualsIgnoreCaseIsLowerEquality(s.storage[k].email.value, e);
      Text.EqualsIgnoreCaseIsLowerEquality(s.storage[k].email.value, e');
    }
  }
}

/**
 * The older, minimal in-memory user repository (`user/UserRepositoryImpl`):
 * the same map and counter without the email lookups. Each operation
 * behaves exactly as its counterpart in `InMemoryUserRepository`.
 */
module SimpleUserRepository {
  import opened Common
  import opened Domain
  import InMemoryUserRepository

  type UserStore = InMemoryUserRepository.UserStore

  /** `findById`: a plain map lookup. */
  function FindById(s: UserStore, id: int): (r: Option<User>)
    ensures r == InMemoryUserRepository.FindById(s, id)
  {
    if id !in s.storage then None else Some(s.storage[id])
  }

  /** `save`: a null id takes the counter, which then moves on; an explicit id overwrites. */
  function Save(s: UserStore, u: User): (r: (UserStore, User))
    ensures r == InMemoryUserRepository.Save(s, u)
  {
    var saved := if u.id.None? then u.(id := Some(s.nextId)) else u;
    var next := if u.id.None? then s.nextId + 1 else s.nextId;
    (InMemoryUserRepository.UserStore(s.storage[saved.id.value := saved], next), saved)
  }

  /** `delete`: `Map.remove`, which ignores an absent key. */
  function Delete(s: UserStore, id: int): (r: UserStore)
    ensures r == InMemoryUserRepository.Delete(s, id)
  {
    s.(storage := s.storage - {id})
  }

  /** `existsById`: false for null, otherwise key membership. */
  function ExistsById(s: UserStore, id: Option<int>): (r: bool)
    ensures r == InMemoryUserRepository.ExistsById(s, id)
  {
    if id.None? then false else id.value in s.storage
  }
}

=== FILE: user_services.dfy ===
/**
 * The server's `UserServiceImpl` over its JPA user table. Emails are unique
 * by exact match (`countUsersByEmail`); an update keeps the stored name and
 * email for null fields and checks uniqueness only when the email changes.
 */
module ServerUserService {
  import opened Common
  import opened Domain

  /** The body of a create or update request; both fields may be null. */
  datatype UserRequestDto = UserRequestDto(name: Option<string>, email: Option<string>)

  /** No two rows hold the same email, null included: the invariant the services keep. */
  predicate UniqueEmails(users: map<int, User>) {
    forall j, k :: j in users && k in users && j != k ==> users[j].email != users[k].email
  }

  /** `countUsersByEmail`: the number of rows whose email equals `email` exactly. */
  function CountUsersByEmail(users: map<int, User>, email: Option<string>): (n: nat)
    ensures n == 0 <==> forall k :: k in users ==> users[k].email != email
  {
    var holders := set k | k in users && users[k].email == email;
    assert forall k :: k in users && users[k].email == email ==> k in holders;
    if forall k :: k in users ==> users[k].email != email then
      assert holders == {};
      0
    else
      assert holders != {};
      |holders|
  }

  /**
   * `JpaRepository.save`: a row without an id is inserted under the next
   * identity value; a row with an id is written under that id.
   */
  function SaveUser(users: map<int, User>, u: User): (r: (map<int, User>, User))
    ensures r.1.name == u.name && r.1.email == u.email
    ensures u.id.None? ==> r.1.id == Some(NextKey(users)) && NextKey(users) !in users
    ensures u.id.Some? ==> r.1 == u
    ensures r.1.id.Some? && r.0 == users[r.1.id.value := r.1]
  {
    var saved := if u.id.None? then u.(id := Some(NextKey(users))) else u;
    (users[saved.id.value := saved], saved)
  }

  /** `getUser`: the stored row, or NotFound. */
  function GetUser(users: map<int, User>, id: int): (r: Result<User>)
    ensures r.Ok? <==> id in users
    ensures r.Ok? ==> r.value == users[id]
    ensures r.Err? ==> r.error == NotFound
  {
    if id in users then Ok(users[id]) else Err(NotFound)
  }

  /** `findById`: the stored user, or NotFound. */
  function FindById(users: map<int, User>, id: int): (r: Result<User>)
    ensures r.Ok? <==> id in users
    ensures r.Ok? ==> r.value == users[id]
    ensures r.Err? ==> r.error == NotFound
  {
    GetUser(users, id)
  }

  /** `create`: refuses an email some row already holds, otherwise inserts a new row. */
  function Create(users: map<int, User>, dto: UserRequestDto): (r: Result<(map<int, User>, User)>)
    ensures r.Err? <==> exists k :: k in users && users[k].email == dto.email
    ensures r.Err? ==> r.error == DuplicatedData
    ensures r.Ok? ==> var (users', u) := r.value;
                      && u.id == Some(NextKey(users)) && NextKey(users) !in users
                      && u.name == dto.name && u.email == dto.email
                      && users' == users[NextKey(users) := u]
  {
    var user := User(None, dto.name, dto.email);
    if CountUsersByEmail(users, user.email) != 0 then Err(DuplicatedData)
    else Ok(SaveUser(users, user))
  }

  /** The user an update writes: the stored name and email where the request has null. */
  function Merge(prev: User, userId: int, dto: UserRequestDto): (u: User)
    ensures u.id == Some(userId)
    ensures u.name == (if dto.name.Some? then dto.name else prev.name)
    ensures u.email == (if dto.email.Some? then dto.email else prev.email)
  {
    User(Some(userId),
         if dto.name.None? then prev.name else dto.name,
         if dto.email.None? then prev.email else dto.email)
  }

  /**
   * `update`: NotFound for an unknown id; a stored null email makes the
   * comparison throw; an email that changes to one already held is refused;
   * otherwise the merged row replaces the stored one.
   */
  function Update(users: map<int, User>, userId: int, dto: UserRequestDto): (r: Result<(map<int, User>, User)>)
    ensures userId !in users ==> r == Err(NotFound)
    ensures userId in users && users[userId].email.None? ==> r == Err(NullValue)
    ensures r.Ok? ==> var (users', u) := r.value;
                      && userId in users && u == Merge(users[userId], userId, dto)
                      && users' == users[userId := u]
    ensures r == Err(DuplicatedData) <==>
              && userId in users && users[userId].email.Some?
              && var email := Merge(users[userId], userId, dto).email;
                 email != users[userId].email && exists k :: k in users && users[k].email == email
    ensures userId in users && users[userId].email.Some? && (dto.email.None? || dto.email == users[userId].email) ==> r.Ok?
    ensures userId in users && users[userId].email.Some? && r != Err(DuplicatedData) ==> r.Ok?
  {
    var prev :- GetUser(users, userId);
    var merged := Merge(prev, userId, dto);
    if prev.email.None? then Err(NullValue)
    else if prev.email != merged.email && CountUsersByEmail(users, merged.email) != 0 then Err(DuplicatedData)
    else Ok(SaveUser(users, merged))
  }

  /** `deleteById`: NotFound for an unknown id, otherwise the row is removed and `true` returned. */
  function DeleteById(users: map<int, User>, id: int): (r: Result<(map<int, User>, bool)>)
    ensures r.Err? <==> id !in users
    ensures r.Err? ==> r.error == NotFound
    ensures r.Ok? ==> r.value.1 && r.value.0 == users - {id}
    ensures r.Ok? ==> FindById(r.value.0, id) == Err(NotFound)
  {
    var _ :- FindById(users, id);
    Ok((users - {id}, true))
  }

  /** Creating a user keeps emails unique. */
  lemma CreateKeepsEmailsUnique(users: map<int, User>, dto: UserRequestDto)
    requires UniqueEmails(users)
    requires Create(users, dto).Ok?
    ensures UniqueEmails(Create(users, dto).value.0)
  {
  }

  /** Updating a user keeps emails unique. */
  lemma UpdateKeepsEmailsUnique(users: map<int, User>, userId: int, dto: UserRequestDto)
    requires UniqueEmails(users)
    requires Update(users, userId, dto).Ok?
    ensures UniqueEmails(Update(users, userId, dto).value.0)
  {
    var (users', u) := Update(users, userId, dto).value;
    forall j, k | j in users' && k in users' && j != k
      ensures users'[j].email != users'[k].email
    {
      if j == userId {
        assert users'[k] == users[k];
      } else if k == userId {
        assert users'[j] == users[j];
      }
    }
  }

  /** An update whose fields are all null rewrites the stored row unchanged, provided it carries its own id. */
  lemma EmptyUpdateKeepsUser(users: map<int, User>, userId: int)
    requires userId in users && users[userId].id == Some(userId) && users[userId].email.Some?
    ensures Update(users, userId, UserRequestDto(None, None)) == Ok((users, users[userId]))
  {
    assert users[userId := users[userId]] == users;
  }

  /** Repeating an update that succeeded changes nothing more. */
  lemma UpdateIsIdempotent(users: map<int, User>, userId: int, dto: UserRequestDto)
    requires Update(users, userId, dto).Ok?
    ensures var (users', u) := Update(users, userId, dto).value;
            Update(users', userId, dto) == Ok((users', u))
  {
    var (users', u) := Update(users, userId, dto).value;
    assert users'[userId := u] == users';
  }
}

/**
 * The monolith's JPA-style `user/service/UserServiceImpl`. It takes the user
 * entity itself on create and the monolith's `UserDto` on update, and
 * otherwise follows the server's rules step for step.
 */
module MonolithUserService {
  import opened Common
  import opened Domain
  import UserValidator
  import ServerUserService

  /** `create`: refuses a taken email, then saves the entity as given. */
  function Create(users: map<int, User>, user: User): (r: Result<(map<int, User>, User)>)
    ensures r.Err? <==> exists k :: k in users && users[k].email == user.email
    ensures r.Err? ==> r.error == DuplicatedData
    ensures r.Ok? ==> r.value == ServerUserService.SaveUser(users, user)
    ensures user.id.None? ==> r == ServerUserService.Create(users, ServerUserService.UserRequestDto(user.name, user.email))
  {
    if ServerUserService.CountUsersByEmail(users, user.email) != 0 then Err(DuplicatedData)
    else Ok(ServerUserService.SaveUser(users, user))
  }

  /** `update`: `toUser(dto, userId)`, then the same merge and uniqueness rule as the server. */
  function Update(users: map<int, User>, userId: int, dto: UserValidator.UserDto): (r: Result<(map<int, User>, User)>)
    ensures r == ServerUserService.Update(users, userId, ServerUserService.UserRequestDto(dto.name, dto.email))
  {
    if userId !in users then Err(NotFound)
    else
      var prev := users[userId];
      var name := if dto.name.None? then prev.name else dto.name;
      var email := if dto.email.None? then prev.email else dto.email;
      var merged := User(Some(userId), name, email);
      if prev.email.None? then Err(NullValue)
      else if prev.email != email && ServerUserService.CountUsersByEmail(users, email) != 0 then Err(DuplicatedData)
      else Ok((users[userId := merged], merged))
  }

  /** `findById`: the stored user, or NotFound. */
  function FindById(users: map<int, User>, id: int): (r: Result<User>)
    ensures r == ServerUserService.FindById(users, id)
  {
    if id !in users then Err(NotFound) else Ok(users[id])
  }

  /** `deleteById`: NotFound for an unknown id, otherwise removal and `true`. */
  function DeleteById(users: map<int, User>, id: int): (r: Result<(map<int, User>, bool)>)
    ensures r == ServerUserService.DeleteById(users, id)
  {
    if id !in users then Err(NotFound) else Ok((users - {id}, true))
  }

  /**
   * A create carrying an explicit id overwrites the row under that id,
   * which the server's create, whose request has no id, cannot do.
   */
  lemma ExplicitIdOverwritesRow(users: map<int, User>, k: int, name: string, email: string, other: string)
    requires k in users && users[k].email == Some(other) && other != email
    requires forall j :: j in users ==> users[j].email != Some(email)
    ensures var r := Create(users, User(Some(k), Some(name), Some(email)));
            r.Ok? && k in r.value.0 && r.value.0[k].email == Some(email) && |r.value.0| == |users|
  {
  }
}

/**
 * The monolith's oldest `user/UserServiceImpl`, on the minimal in-memory
 * repository: no uniqueness check, and an update copies the request's
 * fields even when they are null.
 */
module LegacyUserService {
  import opened Common
  import opened Domain
  import InMemoryUserRepository
  import SimpleUserRepository
  import UserValidator
  import ServerUserService

  type UserStore = InMemoryUserRepository.UserStore

  /** `getUserById`: the stored user, or NoSuchElement. */
  function GetUserById(s: UserStore, userId: int): (r: Result<User>)
    ensures r.Ok? <==> userId in s.storage
    ensures r.Ok? ==> r.value == s.storage[userId]
    ensures r.Err? ==> r.error == NoSuchElement
  {
    match SimpleUserRepository.FindById(s, userId)
    case None => Err(NoSuchElement)
    case Some(u) => Ok(u)
  }

  /** `createUser`: the request becomes an entity and is saved; nothing is checked. */
  function CreateUser(s: UserStore, dto: UserValidator.UserDto): (r: (UserStore, User))
    ensures r.1.name == dto.name && r.1.email == dto.email
    ensures dto.id.None? ==> r.1.id == Some(s.nextId) && r.0.nextId == s.nextId + 1
    ensures r.1.id.Some? && r.0.storage == s.storage[r.1.id.value := r.1]
  {
    SimpleUserRepository.Save(s, User(dto.id, dto.name, dto.email))
  }

  /** `updateUser`: NoSuchElement for an unknown id; otherwise email and name are set from the request, nulls included. */
  function UpdateUser(s: UserStore, userId: int, dto: UserValidator.UserDto): (r: Result<(UserStore, User)>)
    ensures r.Err? <==> userId !in s.storage
    ensures r.Err? ==> r.error == NoSuchElement
    ensures r.Ok? ==> var (s', u) := r.value;
                      && u.email == dto.email && u.name == dto.name
                      && (s.storage[userId].id == Some(userId) ==> u.id == Some(userId) && s'.storage == s.storage[userId := u])
  {
    var existing :- GetUserById(s, userId);
    Ok(SimpleUserRepository.Save(s, existing.(email := dto.email, name := dto.name)))
  }

  /** `deleteUser`: NoSuchElement for an unknown id, otherwise the user is removed. */
  function DeleteUser(s: UserStore, userId: int): (r: Result<UserStore>)
    ensures r.Err? <==> userId !in s.storage
    ensures r.Err? ==> r.error == NoSuchElement
    ensures r.Ok? ==> r.value.storage == s.storage - {userId} && r.value.nextId == s.nextId
  {
    var _ :- GetUserById(s, userId);
    Ok(SimpleUserRepository.Delete(s, userId))
  }

  /** Two users may share an email: creation does not look at the stored emails. */
  lemma CreateAllowsDuplicateEmail(s: UserStore, dto: UserValidator.UserDto)
    requires InMemoryUserRepository.Fresh(s) && dto.id.None? && dto.email.Some?
    ensures var (s1, a) := CreateUser(s, dto);
            var (s2, b) := CreateUser(s1, dto);
            && a.id != b.id && a.id.value in s2.storage && b.id.value in s2.storage
            && s2.storage[a.id.value].email == s2.storage[b.id.value].email == dto.email
  {
  }

  /**
   * Where the server's update keeps the stored email for a null field, the
   * legacy update erases it.
   */
  lemma UpdateErasesOmittedFields(s: UserStore, userId: int, name: string)
    requires userId in s.storage && s.storage[userId].email.Some?
    requires s.storage[userId].id == Some(userId)
    ensures var r := UpdateUser(s, userId, UserValidator.UserDto(None, None, Some(name)));
            r.Ok? && r.value.0.storage[userId].email.None?
    ensures var r := ServerUserService.Update(s.storage, userId, ServerUserService.UserRequestDto(Some(name), None));
            r.Ok? && r.value.0[userId].email == s.storage[userId].email
  {
  }
}

=== FILE: user_validator.dfy ===
/**
 * The monolith's `UserValidatorImpl`: a new user needs an email and a name
 * that nobody else uses; an update is checked only when it changes the
 * email to one that differs from the current one ignoring case.
 */
module UserValidator {
  import opened Common
  import opened Domain
  import opened Text
  import opened InMemoryUserRepository

  /** The body of a create or update request; every field may be null. */
  datatype UserDto = UserDto(id: Option<int>, email: Option<string>, name: Option<string>)

  /** `validateEmailUniqueness`: refuses an email some stored user already has, ignoring case. */
  function ValidateEmailUniqueness(s: UserStore, email: Option<string>): (o: Outcome)
    ensures o.Fail? <==> ExistsByEmail(s, email)
    ensures o.Fail? ==> o.error == Conflict
    ensures o.Fail? ==> FindByEmail(s, email).Some?
  {
    if ExistsByEmail(s, email) then Fail(Conflict) else Pass
  }

  /** `validateCreate`: null body, then null email, then null name, then uniqueness. */
  function ValidateCreate(s: UserStore, dto: Option<UserDto>): (o: Outcome)
    ensures dto.None? ==> o == Fail(IllegalArgument)
    ensures dto.Some? && dto.value.email.None? ==> o == Fail(IllegalArgument)
    ensures dto.Some? && dto.value.name.None? ==> o == Fail(IllegalArgument)
    ensures o.Pass? <==> dto.Some? && dto.value.email.Some? && dto.value.name.Some? && !ExistsByEmail(s, dto.value.email)
    ensures o.Fail? && dto.Some? && dto.value.email.Some? && dto.value.name.Some? ==> o.error == Conflict
  {
    if dto.None? then Fail(IllegalArgument)
    else if dto.value.email.None? then Fail(IllegalArgument)
    else if dto.value.name.None? then Fail(IllegalArgument)
    else ValidateEmailUniqueness(s, dto.value.email)
  }

  /** `isSameEmailIgnoreCase`: two nulls agree, a null and a string do not, two strings compare ignoring case. */
  predicate IsSameEmailIgnoreCase(a: Option<string>, b: Option<string>) {
    if a.None? && b.None? then true
    else if a.None? || b.None? then false
    else EqualsIgnoreCase(a.value, b.value)
  }

  /** Null-aware case-insensitive equality is reflexive and symmetric. */
  lemma IsSameEmailIgnoreCaseIsSymmetric(a: Option<string>, b: Option<string>)
    ensures IsSameEmailIgnoreCase(a, a)
    ensures IsSameEmailIgnoreCase(a, b) <==> IsSameEmailIgnoreCase(b, a)
    ensures IsSameEmailIgnoreCase(a, b) ==> (a.None? <==> b.None?)
  {
    if a.Some? {
      EqualsIgnoreCaseIsLowerEquality(a.value, a.value);
      if b.Some? {
        EqualsIgnoreCaseIsLowerEquality(a.value, b.value);
      }
    }
  }

  /** `validateUpdate`: a null email, or one equal to the current one ignoring case, is not checked. */
  function ValidateUpdate(s: UserStore, dto: UserDto, currentEmail: Option<string>): (o: Outcome)
    ensures dto.email.None? ==> o.Pass?
    ensures IsSameEmailIgnoreCase(dto.email, currentEmail) ==> o.Pass?
    ensures o.Fail? <==> dto.email.Some? && !IsSameEmailIgnoreCase(dto.email, currentEmail) && ExistsByEmail(s, dto.email)
    ensures o.Fail? ==> o.error == Conflict
  {
    if dto.email.Some? && !IsSameEmailIgnoreCase(dto.email, currentEmail) then ValidateEmailUniqueness(s, dto.email)
    else Pass
  }

  /**
   * A user may resubmit their own email in any case: the update check
   * passes although the repository does hold that email.
   */
  lemma OwnEmailInAnotherCasePasses(s: UserStore, k: int, e: string)
    requires k in s.storage && s.storage[k].email.Some?
    requires EqualsIgnoreCase(s.storage[k].email.value, e)
    ensures ExistsByEmail(s, Some(e))
    ensures ValidateUpdate(s, UserDto(None, Some(e), None), s.storage[k].email).Pass?
  {
    assert HasEmail(s.storage[k], e);
    EqualsIgnoreCaseIsLowerEquality(s.storage[k].email.value, e);
  }

  /** Creating a user whose email is held already, in any case, is refused with Conflict. */
  lemma CreateRefusesTakenEmailInAnyCase(s: UserStore, k: int, e: string, name: string)
    requires k in s.storage && s.storage[k].email.Some?
    requires EqualsIgnoreCase(s.storage[k].email.value, e)
    ensures ValidateCreate(s, Some(UserDto(None, Some(e), Some(name)))) == Fail(Conflict)
  {
    assert HasEmail(s.storage[k], e);
  }

  /** Once a validated user is saved, the same request is refused: its email is now taken. */
  lemma ValidatedCreateMakesEmailTaken(s: UserStore, dto: UserDto)
    requires ValidateCreate(s, Some(dto)).Pass?
    ensures var (s', _) := Save(s, User(None, dto.name, dto.email));
            ExistsByEmail(s', dto.email) && !ExistsByEmail(s, dto.email)
            && ValidateCreate(s', Some(dto)) == Fail(Conflict)
  {
    SavedUserIsFound(s, User(None, dto.name, dto.email));
  }
}
